=== FILE: README.md ===
# peco screen layout, modelled in Dafny

This project models the screen layout engine of peco, an interactive line
filter for the terminal. The engine lives in `layout.go`. It decides where the
query prompt, the status bar and the page of candidate lines go on the
terminal, and which page of candidates is visible. It also decides how each
candidate is drawn: the colours of its row, and the highlighting of the byte
ranges the query matched.

The terminal is not modelled as a device. Each drawing routine returns what it
would write: single cells (`Text.Cell`), or "runs". A run is one `printScreen`
call: a column, a row, colours, bytes and a fill flag (`Text.Run`). A Go panic
is a `Results.Failure` carrying the kind of panic. Code outside `layout.go` is
given to the model as parameters:

- UTF-8 decoding and `runewidth.RuneWidth` are the two fields of a
  `Text.Glyphs` value. Its decoder may return any rune and size; a size
  outside `1..len` is read as one byte (`Text.Advance`).
- The terminal's width and height, and whether `Clear` succeeded.
- From the shared context `Ctx`: the style, the selection sets, the query as
  runes with its caret, and the paging fields (`Paging.PagingState`).

Modules, in dependency order:

- `Results`: `Option`, `Result` and the panic kinds.
- `Attributes`: termbox attributes as `bv16`, the style record and `mergeAttribute`.
- `Text`: `StringWidth` and `printScreen`.
- `Anchors`: vertical anchors and `AnchorPosition`.
- `Paging`: `CalculatePage`, the `DrawScreen` clamp, `linesPerPage` and `MovePage`.
- `Prompt`: `UserPrompt` and its `Draw`.
- `StatusBar`: `PrintStatus`, its timer slot, and the corrected truncation.
- `ListArea`: the row colours, the highlight walk and `ListArea.Draw`.
- `Layout`: the two layout constructors, placement on screen, and `DrawScreen`.

## Model

| member | source | states |
|---|---|---|
| `Attributes.MergeAttribute` | layout.go:53-58 | no contract of its own: the lemmas in the following rows state the merge. With no colour on a side it ORs the attributes; with colours on both sides it combines the palette indices with 16-bit wrap-around |
| `Attributes.MergeIdentities` | layout.go:53-58 | merging with attribute 0 from either side gives back the other attribute, and merging an attribute with itself gives it back |
| `Attributes.MergeCommutes` | layout.go:53-58 | the merge does not depend on argument order |
| `Attributes.MergeWithoutColour` | layout.go:54-55 | when the first side has no colour in the low nibble, the second side's colour passes through unchanged and the modifier bits are OR-ed (by `MergeCommutes` the same holds with the sides swapped) |
| `Attributes.MergeOverlaysPalette` | layout.go:57 | two of termbox's eight basic colours (1..8) merge to the colour whose palette index is the bitwise union of theirs, and it is again a basic colour |
| `Attributes.MergeKeepsModifiers` | layout.go:57 | when both sides have a colour and the colour sum does not carry, the modifier bits of the result are the union of both sides' modifier bits |
| `Attributes.MergeKeepsModifiersOfBasicColours` | layout.go:57 | with two basic colours no carry can happen, so bold, underline and reverse from either side survive the merge |
| `Text.PrintStep` | layout.go:63-68 | one decoding step of printScreen: it always consumes 1..len bytes and never yields RuneError. A decoded RuneError, including a correctly encoded U+FFFD, becomes '?' and consumes exactly one byte |
| `Text.ShownRunes` | layout.go:62-71 | printScreen writes at most one cell per byte, at least one for non-empty text, and never a RuneError |
| `Text.ShownWidthIsStringWidth` | layout.go:64-70 | for text that decodes without RuneError, the columns printScreen advances over equal StringWidth of the text |
| `Text.PrintRunes` | layout.go:62-71 | the text's cells, one per shown rune, each at the start column plus the widths of the runes before it; the end column is the start plus the width of all shown runes |
| `Text.FillRow` | layout.go:77-80 | blanks from the column to the right edge, one per column, none when already at or past the edge |
| `Text.PrintScreen` | layout.go:61-81 | all cells printScreen writes: the shown runes laid out left to right, then blank fill to the screen width only when fill is set and the text ends left of the edge |
| `Anchors.NewAnchorSettings` | layout.go:92-98 | succeeds exactly for the two known anchors, storing anchor and offset; panics otherwise |
| `Anchors.AnchorPosition` | layout.go:102-115 | panics with an unknown-anchor error exactly when the anchor is neither top nor bottom. A top-anchored element sits `offset` rows below the first row; a bottom-anchored one sits `offset` rows above the last row |
| `Anchors.AnchorPositionOfValidSettings` | layout.go:102-115 | settings built by NewAnchorSettings place the element on row `offset` when top-anchored and on row `h-offset-1` when bottom-anchored |
| `Anchors.AnchorsMirror` | layout.go:105-109 | the same offset from the top and from the bottom gives rows that add up to `h-1` |
| `Anchors.AnchorPositionPanicsOnlyWhenInvalid` | layout.go:102-115 | AnchorPosition panics exactly on an anchor other than top or bottom |
| `Anchors.IsValidVerticalAnchor` | layout.go:39-42 | no contract of its own: only top and bottom are valid anchors. The success-iff clauses of NewAnchorSettings, AnchorPosition, NewStatusBar, DrawPrompt and DrawList rest on it |
| `Paging.PageIndexOf` | layout.go:381-385 | the page index of a cursor line is at least 1; lines up to 1 are on page 1; otherwise the line lies inside that page, `(index-1)*perPage < line <= index*perPage` |
| `Paging.TruncationAgreesAfterClamp` | layout.go:381-385 | after the clamp to page 1, Go's truncating division and Dafny's Euclidean division give the same page index |
| `Paging.MaxPages` | layout.go:388-392 | the page count is 1 for no targets, else the least number of pages of perPage lines that holds all targets (the ceiling) |
| `Paging.CalculatePage` | layout.go:379-404 | the goto retry as a loop that terminates. Each retry lowers the page index by exactly one. The result equals the single-pass reference `SinglePassPage`. It gives up exactly when there are no targets, the query is empty and the cursor is past the first page. Page and maxPage are written on that path too. When settled, `1 <= index <= maxPage`, `offset == (index-1)*perPage` and the cursor is on the page. The cursor moves only when it was past the last page |
| `Paging.ClampToTargets` | layout.go:416-418 | DrawScreen's clamp: a cursor past the end of a non-empty list goes to its last line; otherwise it is unchanged |
| `Paging.LinesPerPage` | layout.go:434-437 | the list gets every row except the prompt row and the status row, so a page holds at least one line exactly when the screen has at least three rows |
| `Paging.ClampedCursorSettlesInPlace` | layout.go:382-400 | after the clamp, a non-empty list never takes the retry: the page is the clamped cursor's page and the cursor stays |
| `Paging.ShrunkListSettlesOnFirstPage` | layout.go:379-404 | worked case: cursor 21 with five targets on pages of ten settles on page 1 (offset 0) with the cursor at line 10 |
| `Paging.CursorStep` | layout.go:441-463 | each request moves the cursor by its top-down step (±1, ±perPage, 0 for other requests); in bottom-up orientation by the negation of that step |
| `Paging.WrapCursor` | layout.go:465-474 | below 1 wraps to the length of the known list (1 if unknown); past a known list's end wraps to 1. With a known non-empty list the result is in `[1, len]`; with an unknown list it is at least 1; a line already in range is kept |
| `Paging.MovePage` | layout.go:440-475 | only the cursor changes. With a known non-empty list it ends inside the list; with an unknown list it ends at a line of at least 1 |
| `Paging.OtherRequestOnlyWraps` | layout.go:441-463 | a request outside the four paging cases leaves the cursor to the wrap alone |
| `Paging.OppositeMovesCancel` | layout.go:440-475 | line down then line up (or page down then page up, or the reverse) returns to the starting state in either orientation, when the first move does not wrap |
| `Prompt.NewUserPrompt` | layout.go:126-139 | the prefix is the configured prompt when that is non-empty and exactly "QUERY>" when it is empty, so it is never empty. prefixLen is its display width. The anchor and offset are stored as given, without validation |
| `Prompt.ClampCaret` | layout.go:148-154 | the caret is clamped into `[0, queryLen]`: negative goes to 0, past the end goes to the end, a caret in range is kept |
| `Prompt.QueryCells` | layout.go:167-177 | one cell per query rune, each at the start column plus the widths of the runes before it; only the rune whose index equals the caret is reversed |
| `Prompt.DrawPrompt` | layout.go:142-184 | the prefix goes at column 0 in basic colours. The caret written back is the caret clamped into `[0, len(query)]`, so a negative caret lands on rune 0. With the clamped caret at the end, the whole query is drawn at `prefixLen+1` in the query colours, not reversed; then one reversed blank at `prefixLen+1+width(query)`; then, from the next column, an empty run in the query colours with fill set. Otherwise each rune gets its own cell and only the rune at the clamped caret is reversed. The indicator is drawn in basic colours, ends at the right edge, and shows page index and page count. Panics exactly on an unknown anchor |
| `StatusBar.NewStatusBar` | layout.go:195-202 | succeeds exactly for a known anchor, and then keeps that anchor and offset as its settings; no clear timer is pending |
| `StatusBar.DropWhileWider` | layout.go:223-228 | the truncation loop as written, when no rune is wider than its bytes. Each step drops one whole leading rune and subtracts its byte length. It stops at the longest whole-rune suffix whose tracked width is at most w: every longer suffix still has a tracked width above w. The bytes dropped equal the width subtracted, and the message is kept exactly when it already fitted |
| `StatusBar.PrintStatus` | layout.go:215-259 | with the text and tracked width left by the truncation: blanks in basic colours at column 0, exactly when w exceeds the width, as many as the columns left free. The message, exactly when the width is positive, at column `w - width` in bold reverse video. The kept text is a whole-rune suffix, and a message that fits is kept whole. The timer slot is armed with the delay exactly when the delay is non-zero. The row is the anchor row |
| `StatusBar.StatusRow` | layout.go:230-247 | the padding exists exactly when the tracked width is below w and is `w - width` blanks at column 0 in basic colours. The message exists exactly when the width is positive and starts where the padding ends, in bold reverse video |
| `StatusBar.ClearAndReplace` | layout.go:204-211 | the timer callback's empty message blanks the row and leaves no timer. A later message without delay disarms a pending timer |
| `StatusBar.DropWhileWiderByWidth` | layout.go:223-228 | corrected truncation: the longest whole-rune suffix whose display width is at most w. It fits, every longer suffix is too wide, and it is the whole message exactly when the message fits |
| `StatusBar.PrintStatusByWidth` | layout.go:215-259 | corrected PrintStatus, total for every width function. It draws the same padding and reverse-video message as PrintStatus, but for the display width of the longest fitting suffix, so the message ends exactly at the right edge: `x + width == w`. A non-empty row always draws something. A fitting message is drawn whole, and drawn exactly when it has positive width |
| `StatusBar.StatusOverrunsWithWideRunes` | layout.go:224-247 | counterexample: as written, "一一" on a two-column screen is drawn at column 1 and runs to column 3, past the edge; the corrected version draws it at column 0 |
| `StatusBar.TruncationPass` | layout.go:224-227 | one pass of the loop as written, with the decoder's own size: a non-empty message loses exactly one whole leading rune, so what is left is the longest whole-rune suffix shorter than the message. The width drops by exactly the bytes dropped. An empty message, for which Go reports size 0, is left as it is |
| `StatusBar.PassesAgreeWithDropWhileWider` | layout.go:223-228 | when no rune is wider than its bytes, as many passes of the loop as written as the message has bytes end exactly where DropWhileWider ends. So PrintStatus and the hang counterexample model the same loop |
| `StatusBar.StatusHangsOnWideInvalidBytes` | layout.go:223-228 | counterexample: two invalid bytes, each measured two columns wide, on a one-column screen. The loop as written reaches an empty message with tracked width 2, and after any number of further passes the loop condition still holds. The corrected version terminates, keeps no message and pads the row with one blank |
| `ListArea.WalkGap` | layout.go:318-323 | the text between the byte cursor and the next range, in the row colours and not filled, when the range starts after the cursor. The highlighted texts and their spans are unchanged. Panics exactly when that range starts past the line's end |
| `ListArea.WalkHit` | layout.go:324-327 | the matched range in matched colours over the merged background, filled, appended to the highlighted texts. With the cursor at the range's start it covers exactly the range's byte span. The byte cursor advances by the range's length. Panics exactly when the range is not a slice of the line |
| `ListArea.WalkStep` | layout.go:316-328 | one iteration keeps the walk invariant. The runs are laid out left to right, and the column cursor equals the summed display width of what was drawn. For well-formed ranges the byte cursor sits at the end of the last handled range and the runs spell the line up to it. The highlighted runs are the handled ranges in order, each at its own byte span |
| `ListArea.WalkRanges` | layout.go:316-329 | after the loop with well-formed ranges the byte cursor equals the last range's end and the runs spell the line up to it. The highlighted runs are exactly the ranges, in order, each covering its own byte span `[start, end)` of the line |
| `ListArea.WalkTail` | layout.go:331-336 | after the loop, the last range is drawn again in query colours, filled, exactly when the byte cursor stopped before its start. Otherwise, when the line goes on past the range's end, the rest of the line is one filled run in the row colours; else nothing is added. For well-formed ranges the runs spell the whole line |
| `ListArea.DrawHighlighted` | layout.go:316-336 | the highlight walk. Well-formed ranges never panic and never reach the QueryFG branch. Their runs concatenate to exactly the line. The highlighted runs are exactly the ranges, in order, each at its own byte span. The row ends with a filled Rest run holding the text after the last range exactly when there is such text. A non-nil empty range list panics |
| `ListArea.DrawRow` | layout.go:310-337 | a candidate without ranges is one filled run of the whole line at column 0 in the row colours. One with ranges is the highlight walk, with everything DrawHighlighted states carried into `ShowsCandidate`. A nil or well-formed range list never panics; an empty non-nil one always does |
| `ListArea.NewListArea` | layout.go:269-276 | succeeds exactly for a known anchor, keeping anchor, offset and orientation |
| `ListArea.DrawSlot` | layout.go:286-314 | slot n: current-line colours iff `offset+n == currentLine-1`. Otherwise saved-selection colours iff line `offset+n+1` is selected or in the selected range, else basic colours. The row is `start+n` top-down and `start-n` bottom-up |
| `ListArea.RowColours` | layout.go:286-297 | no contract of its own. `ListArea.DrawSlot` and `ListArea.SlotDrawn` state the rule: the cursor line takes the selected colours, a selected or range-selected line the saved-selection colours, any other line the basic colours |
| `ListArea.SlotRow` | layout.go:304-308 | no contract of its own. `Layout.LayoutsArePlaced` states that the slot rows of a page are pairwise distinct and on screen. `Layout.LineMovesFollowTheScreen` states that a cursor step moves the drawn row by one in the key's direction |
| `ListArea.DrawList` | layout.go:279-339 | one row per slot from the page offset, perPage of them or up to the end of the candidates, whichever is fewer, each as `DrawSlot` states. It never panics on a known anchor, a non-negative offset and candidates whose ranges are nil or well-formed |
| `Layout.NewDefaultLayout` | layout.go:353-363 | status bar anchored bottom 0, prompt top 0, list top 1 drawn top-down, no timer pending |
| `Layout.NewBottomUpLayout` | layout.go:366-376 | status bar anchored bottom 0, prompt bottom 1, list bottom 2 drawn bottom-up, no timer pending |
| `Layout.LayoutsArePlaced` | layout.go:353-376 | in both layouts, on a screen of `h >= 3` rows, the status row, the prompt row and the `h-2` list-slot rows all lie in `[0,h)` and are pairwise distinct |
| `Layout.LineMovesFollowTheScreen` | layout.go:304-308 | in both orientations a line-down request moves the highlighted row one row down the screen and a line-up request one row up, when the move neither wraps nor changes page |
| `Layout.DrawScreen` | layout.go:411-432 | a failed Clear changes nothing. Otherwise the cursor is clamped and the page is CalculatePage's result for `h-2` lines. Nothing is drawn exactly when CalculatePage gives up. The prompt shows page index and count. The list shows the page, as DrawList states. With a non-empty list the cursor is unchanged by paging. With a non-empty list and a cursor of at least 1, its line is on the page and its row is drawn in the selected colours. A cursor of 0, which MovePage can leave after wrapping on a known empty list, is outside that clause |

## Left out

- The shared page record: `Ctx.currentPage` is taken to be a pointer shared with the context. `CalculatePage` copies it at layout.go:381, and its writes to index, offset and perPage are kept only under this assumption, on the path that gives up as well. A value copy would lose them.
- Terminal I/O (`Clear`, `Flush`, `SetCell`, `Size`): drawing returns cells and runs instead. A failed `Flush` at the end of `DrawScreen` changes nothing, so it is not modelled.
- The status bar's `time.AfterFunc` timer and its mutex: concurrency. The timer is an `Option` slot that `PrintStatus` clears and then re-arms for a non-zero delay. The code tests `clearDelay != 0`, not `> 0`, and the model follows the code.
- UTF-8 decoding and `runewidth` internals: these are external libraries. `Text.Glyphs` stands in for them.
- The page indicator text (`fmt.Sprintf` with the matcher's name): only its display width is a parameter. It is placed so that it ends at the right edge.
- `Ctx` internals: the selection set, `SelectedRange`, style lookups and query storage. They are parameters. `QueryLen` is taken to be the number of runes in the query. The query's string width is taken to be the sum of its runes' widths.
- `IsValidLayoutType` (layout.go:24-26): a string comparison with no layout logic.
- Range entries with fewer than two numbers: a `Range` always has a start and an end.
- `Prompt.DrawPrompt`: a negative screen width is not rejected; the indicator column is then negative, as in the code, but nothing is said about drawing off screen.
- `StatusBar.PrintStatus`: takes the screen width as a natural number. It requires that no rune is wider than its bytes (`NarrowGlyphs`). Without this the truncation loop as written can run out of text while the tracked width still exceeds the screen width, and then it never ends. That hang is recorded under Findings and shown by `StatusBar.StatusHangsOnWideInvalidBytes`.
- `StatusBar.DropWhileWider`: requires `NarrowGlyphs` for the same reason.
- `Paging.CalculatePage`: requires `perPage >= 1`. For `perPage == 0` Go divides by zero; for a negative `perPage` the retry has no decreasing measure.
- `Layout.DrawScreen`: requires a screen of at least three rows, so that linesPerPage is at least 1, for the same reason.
- `Paging.MovePage`: with a known but empty list the wrap can leave the cursor at 0 (below 1 goes to `len == 0`) or 1; the contract says only that much about that case.

## Findings

| source | as written | input that shows it | evidently intended | confidence | as-written member | corrected member |
|---|---|---|---|---|---|---|
| layout.go:224-228 | truncating the status message subtracts each dropped rune's byte length (`rw`) from the display width | the message "一一" (two 3-byte runes, 2 columns each) on a screen 2 columns wide: after one rune is dropped the tracked width is 1, so the remaining 2-column rune is drawn at column 1 and overruns the edge | subtract the dropped rune's display width, so the kept message ends exactly at the right edge | not executed; high for the arithmetic, medium that the overrun shows on real terminals | `StatusBar.StatusOverrunsWithWideRunes` | `StatusBar.PrintStatusByWidth` |
| layout.go:223-228 | the truncation loop ends only when the tracked width fits. Each pass subtracts the byte length of the dropped rune, and an empty message drops 0 bytes | with runewidth's East Asian widths on, an invalid byte decodes as U+FFFD, which is ambiguous and measures 2 columns for 1 byte. Take "\xff\xff" on a 1-column screen: the tracked width goes 4, 3, 2, and the message is then empty. Every later pass drops 0 bytes, so the loop spins forever while holding the timer mutex | end the loop when the message is exhausted, or truncate by display width | not executed; plausible, depends on the East Asian width setting | `StatusBar.StatusHangsOnWideInvalidBytes` | `StatusBar.PrintStatusByWidth` |

Two behaviours of the code are easy to miss, and the model follows the code in
both: the clear timer is armed for any non-zero delay, negative ones included;
and a non-nil but empty `Indices()` panics at `matches[len(matches)-1]`, because
the nil check does not cover the empty case.

=== FILE: anchors.dfy ===
/** Vertical anchoring: which screen row an anchored element starts on. */
module Anchors {
  import opened Results

  /** Go's VerticalAnchor is a plain int; only two values are meaningful. */
  type VerticalAnchor = int

  const AnchorTop: VerticalAnchor := 1
  const AnchorBottom: VerticalAnchor := 2

  predicate IsValidVerticalAnchor(anchor: VerticalAnchor) {
    anchor == AnchorTop || anchor == AnchorBottom
  }

  /** An anchor edge and how many rows away from that edge to place the
      element. The struct itself does not enforce a valid anchor: only
      NewAnchorSettings checks it. */
  datatype AnchorSettings = AnchorSettings(anchor: VerticalAnchor, anchorOffset: int)

  /** NewAnchorSettings: panics on an unknown anchor. */
  function NewAnchorSettings(anchor: VerticalAnchor, offset: int): (r: Result<AnchorSettings>)
    ensures r.Success? <==> IsValidVerticalAnchor(anchor)
    ensures r.Success? ==> r.value.anchor == anchor && r.value.anchorOffset == offset
    ensures r.Failure? ==> r.error == InvalidAnchor
  {
    if !IsValidVerticalAnchor(anchor) then Failure(InvalidAnchor)
    else Success(AnchorSettings(anchor, offset))
  }

  /** AnchorPosition: the 0-based row of the anchored element on a screen of
      `height` rows; panics on an unknown anchor. */
  function AnchorPosition(settings: AnchorSettings, height: int): (r: Result<int>)
    ensures r.Success? <==> IsValidVerticalAnchor(settings.anchor)
    ensures r.Failure? ==> r.error == UnknownAnchor
    ensures settings.anchor == AnchorTop ==> r.value == settings.anchorOffset
    ensures settings.anchor == AnchorBottom ==> (height - 1) - r.value == settings.anchorOffset
  {
    match settings.anchor
    case 1 => Success(settings.anchorOffset)
    case 2 => Success(height - settings.anchorOffset - 1)
    case _ => Failure(UnknownAnchor)
  }

  /** Settings built by NewAnchorSettings never make AnchorPosition panic;
      top-anchored elements sit `offset` rows below the first row and
      bottom-anchored ones `offset` rows above the last row, so an offset
      inside the screen always yields a row inside the screen. */
  lemma AnchorPositionOfValidSettings(anchor: VerticalAnchor, offset: int, height: int)
    requires NewAnchorSettings(anchor, offset).Success?
    ensures AnchorPosition(NewAnchorSettings(anchor, offset).value, height).Success?
    ensures var row := AnchorPosition(NewAnchorSettings(anchor, offset).value, height).value;
            && (anchor == AnchorTop ==> row == offset)
            && (anchor == AnchorBottom ==> row + offset == height - 1)
            && (0 <= offset < height ==> 0 <= row < height)
  {
  }

  /** The same offset from opposite edges gives rows that mirror each other
      about the middle of the screen. */
  lemma AnchorsMirror(offset: int, height: int)
    ensures AnchorPosition(AnchorSettings(AnchorTop, offset), height).value
          + AnchorPosition(AnchorSettings(AnchorBottom, offset), height).value == height - 1
  {
  }

  /** AnchorPosition panics exactly on settings that bypassed validation. */
  lemma AnchorPositionPanicsOnlyWhenInvalid(settings: AnchorSettings, height: int)
    ensures AnchorPosition(settings, height).Failure? <==> !IsValidVerticalAnchor(settings.anchor)
  {
  }
}

=== FILE: attributes.dfy ===
/** Cell attributes: termbox's 16-bit `Attribute`, a colour in the low bits
    and modifier flags (bold, reverse) in the high bits. */
module Attributes {

  type Attr = bv16

  /** termbox-go's modifier flags. */
  const AttrBold: Attr := 0x0200
  const AttrReverse: Attr := 0x0800

  /** The colour roles the layout looks up in the configured style set. */
  datatype Style = Style(
    basicFG: Attr, basicBG: Attr,
    queryFG: Attr, queryBG: Attr,
    matchedFG: Attr, matchedBG: Attr,
    selectedFG: Attr, selectedBG: Attr,
    savedSelectionFG: Attr, savedSelectionBG: Attr)

  /** Layers attribute `b` over `a`. When either side selects no colour (a
      zero low nibble) the two are OR-ed; otherwise the colours are combined
      as palette indices (colour value minus one). Arithmetic wraps at 16
      bits, as Go's uint16 does. */
  function MergeAttribute(a: Attr, b: Attr): Attr
  {
    if a & 0x0F == 0 || b & 0x0F == 0 then a | b
    else ((a - 1) | (b - 1)) + 1
  }

  /** Merging with the empty attribute, or with itself, changes nothing. */
  lemma MergeIdentities(a: Attr)
    ensures MergeAttribute(a, 0) == a
    ensures MergeAttribute(0, a) == a
    ensures MergeAttribute(a, a) == a
  {
  }

  /** Merging does not depend on the order of its arguments. */
  lemma MergeCommutes(a: Attr, b: Attr)
    ensures MergeAttribute(a, b) == MergeAttribute(b, a)
  {
  }

  /** A side without a colour passes the other side's colour through and
      only adds its own modifier bits. */
  lemma MergeWithoutColour(a: Attr, b: Attr)
    requires a & 0x0F == 0
    ensures MergeAttribute(a, b) & 0x0F == b & 0x0F
    ensures MergeAttribute(a, b) & 0xFFF0 == (a | b) & 0xFFF0
  {
  }

  /** For two attributes that both carry one of termbox's eight basic colours
      (values 1..8), the result carries the union of their palette indices
      (value minus one) and stays a basic colour. */
  lemma MergeOverlaysPalette(a: Attr, b: Attr)
    requires 1 <= a & 0x0F <= 8 && 1 <= b & 0x0F <= 8
    ensures MergeAttribute(a, b) & 0x0F == (((a & 0x0F) - 1) | ((b & 0x0F) - 1)) + 1
    ensures 1 <= MergeAttribute(a, b) & 0x0F <= 8
  {
    var r := ((a - 1) | (b - 1)) + 1;
    assert MergeAttribute(a, b) == r;
  }

  /** When both sides carry a colour and combining their palette indices
      does not carry out of the colour nibble, the modifier bits of both
      sides survive the merge. */
  lemma MergeKeepsModifiers(a: Attr, b: Attr)
    requires a & 0x0F != 0 && b & 0x0F != 0
    requires ((a - 1) | (b - 1)) & 0x0F != 0x0F
    ensures MergeAttribute(a, b) & 0xFFF0 == (a | b) & 0xFFF0
  {
  }

  /** In particular this holds for termbox's eight basic colours. */
  lemma MergeKeepsModifiersOfBasicColours(a: Attr, b: Attr)
    requires 1 <= a & 0x0F <= 8 && 1 <= b & 0x0F <= 8
    ensures MergeAttribute(a, b) & 0xFFF0 == (a | b) & 0xFFF0
  {
    assert ((a - 1) | (b - 1)) & 0x0F != 0x0F;
    MergeKeepsModifiers(a, b);
  }
}

=== FILE: layout.dfy ===
/** The basic layout: a prompt row, a status row and a list area, placed
    on the screen in one of two arrangements, and the frame DrawScreen
    produces from the shared paging state. */
module Layout {
  import opened Results
  import opened Attributes
  import opened Text
  import opened Anchors
  import opened Paging
  import opened Prompt
  import opened StatusBar
  import opened ListArea

  /** BasicLayout: the components; the shared context is passed to each
      operation instead of being held. */
  datatype BasicLayout = BasicLayout(status: StatusBar, prompt: UserPrompt, list: ListArea)

  /** NewDefaultLayout: status bar on the bottom row, prompt on the top row,
      list top-down from the row below the prompt. */
  function NewDefaultLayout(g: Glyphs, configPrompt: seq<Byte>): (l: BasicLayout)
    ensures l.status.settings == AnchorSettings(AnchorBottom, 0) && l.status.clearTimer.None?
    ensures l.prompt == NewUserPrompt(g, configPrompt, AnchorTop, 0)
    ensures l.list == ListArea(AnchorSettings(AnchorTop, 1), true)
  {
    BasicLayout(NewStatusBar(AnchorBottom, 0).value, NewUserPrompt(g, configPrompt, AnchorTop, 0),
                NewListArea(AnchorTop, 1, true).value)
  }

  /** NewBottomUpLayout: status bar on the bottom row, prompt just above it,
      list bottom-up from the row above the prompt. */
  function NewBottomUpLayout(g: Glyphs, configPrompt: seq<Byte>): (l: BasicLayout)
    ensures l.status.settings == AnchorSettings(AnchorBottom, 0) && l.status.clearTimer.None?
    ensures l.prompt == NewUserPrompt(g, configPrompt, AnchorBottom, 1)
    ensures l.list == ListArea(AnchorSettings(AnchorBottom, 2), false)
  {
    BasicLayout(NewStatusBar(AnchorBottom, 0).value, NewUserPrompt(g, configPrompt, AnchorBottom, 1),
                NewListArea(AnchorBottom, 2, false).value)
  }

  /** All three components sit on known anchors, so drawing them never
      panics on AnchorPosition. */
  predicate Anchored(l: BasicLayout) {
    && IsValidVerticalAnchor(l.status.settings.anchor)
    && IsValidVerticalAnchor(l.prompt.settings.anchor)
    && IsValidVerticalAnchor(l.list.settings.anchor)
  }

  /** On a screen of `height` rows the status row, the prompt row and the
      rows of all linesPerPage list slots lie on the screen, and no two of
      them share a row. */
  predicate Placed(l: BasicLayout, height: int)
    requires Anchored(l)
  {
    var status := AnchorPosition(l.status.settings, height).value;
    var prompt := AnchorPosition(l.prompt.settings, height).value;
    var start := AnchorPosition(l.list.settings, height).value;
    && 0 <= status < height
    && 0 <= prompt < height
    && status != prompt
    && (forall n :: 0 <= n < LinesPerPage(height) ==>
          && 0 <= SlotRow(l.list.sortTopDown, start, n) < height
          && SlotRow(l.list.sortTopDown, start, n) != status
          && SlotRow(l.list.sortTopDown, start, n) != prompt)
    && (forall n, m :: 0 <= n < m < LinesPerPage(height) ==>
          SlotRow(l.list.sortTopDown, start, n) != SlotRow(l.list.sortTopDown, start, m))
  }

  /** Both layouts fit any screen of at least three rows: every component
      row is on screen and none overlaps another. */
  lemma LayoutsArePlaced(g: Glyphs, configPrompt: seq<Byte>, height: int)
    requires height >= 3
    ensures Anchored(NewDefaultLayout(g, configPrompt))
    ensures Placed(NewDefaultLayout(g, configPrompt), height)
    ensures Anchored(NewBottomUpLayout(g, configPrompt))
    ensures Placed(NewBottomUpLayout(g, configPrompt), height)
  {
    var d := NewDefaultLayout(g, configPrompt);
    assert AnchorPosition(d.status.settings, height).value == height - 1;
    assert AnchorPosition(d.prompt.settings, height).value == 0;
    assert AnchorPosition(d.list.settings, height).value == 1;
    var b := NewBottomUpLayout(g, configPrompt);
    assert AnchorPosition(b.status.settings, height).value == height - 1;
    assert AnchorPosition(b.prompt.settings, height).value == height - 2;
    assert AnchorPosition(b.list.settings, height).value == height - 3;
  }

  /** The screen row on which the list draws cursor line `line` while the
      page starting at `offset` is shown. */
  function CursorRow(list: ListArea, start: int, offset: int, line: int): int {
    SlotRow(list.sortTopDown, start, line - 1 - offset)
  }

  /** Moving a line up or down, when it neither wraps nor changes page,
      moves the highlighted row one row up or down the screen in both
      layouts: the bottom-up list reverses the cursor step exactly as it
      reverses the rows. */
  lemma LineMovesFollowTheScreen(l: BasicLayout, s: PagingState, p: PagingRequest, height: int, start: int)
    requires p == ToLineAbove || p == ToLineBelow
    requires MovePage(s, l.list.sortTopDown, p, height).currentLine
             == s.currentLine + CursorStep(l.list.sortTopDown, p, LinesPerPage(height))
    ensures var s' := MovePage(s, l.list.sortTopDown, p, height);
            var offset := s.currentPage.offset;
            CursorRow(l.list, start, offset, s'.currentLine)
            == CursorRow(l.list, start, offset, s.currentLine) + (if p == ToLineBelow then 1 else -1)
  {
  }

  /** One drawn frame: the prompt row and the list rows. */
  datatype Frame = Frame(prompt: PromptDraw, rows: seq<Row>)

  /** What DrawScreen does: nothing when clearing the terminal fails,
      nothing more after CalculatePage reports an empty frame, else a frame;
      a panic while drawing is reported as such. */
  datatype ScreenOutcome = ClearFailed | NothingToDraw | Drawn(frame: Frame) | Panicked(error: Panic)

  /** The shared context parts DrawScreen reads besides the paging state. */
  datatype View = View(query: seq<Rune>, caret: int, selection: set<int>, rangeSelection: set<int>)

  /** DrawScreen. `clearOk` is whether termbox's Clear succeeded; the screen
      is `width` columns by `height` rows; `indicatorWidth` is the display
      width of the page indicator text. The cursor is clamped to a non-empty
      list, the page computed for linesPerPage lines, then the prompt and the
      list are drawn. With a non-empty list the cursor line is on the page
      and its row is drawn in the selected colours. */
  method DrawScreen(g: Glyphs, style: Style, l: BasicLayout, s: PagingState, view: View,
                    targets: seq<Match>, clearOk: bool, width: int, height: int, indicatorWidth: nat)
    returns (s': PagingState, outcome: ScreenOutcome)
    requires height >= 3
    ensures !clearOk ==> s' == s && outcome == ClearFailed
    ensures clearOk ==>
              var line := ClampToTargets(s.currentLine, |targets|);
              && s' == SinglePassPage(s.(currentLine := line), |targets|, LinesPerPage(height)).0
              && (outcome == NothingToDraw <==>
                    |targets| == 0 && s.queryLen == 0 && line > LinesPerPage(height))
              && (|targets| > 0 ==> s'.currentLine == line)
    ensures outcome.Drawn? ==>
              var frame := outcome.frame;
              && IsValidVerticalAnchor(l.list.settings.anchor)
              && frame.prompt.pageLabel == (s'.currentPage.index, s'.maxPage)
              && |frame.rows| == SlotsDrawn(LinesPerPage(height), s'.currentPage.offset, |targets|)
              && RowsDrawn(g, style, l.list.sortTopDown, AnchorPosition(l.list.settings, height).value,
                           s'.currentPage.offset, s'.currentLine, view.selection, view.rangeSelection,
                           targets, frame.rows)
    ensures outcome.Drawn? && |targets| > 0 && s.currentLine >= 1 ==>
              var k := s'.currentLine - 1 - s'.currentPage.offset;
              && 0 <= k < |outcome.frame.rows|
              && outcome.frame.rows[k].fg == style.selectedFG
              && outcome.frame.rows[k].bg == style.selectedBG
    ensures clearOk && Anchored(l) && outcome != NothingToDraw
            && (forall k :: 0 <= k < |targets| ==>
                  targets[k].indices.None? || WellFormedRanges(targets[k].indices.value, |targets[k].line|))
            ==> outcome.Drawn?
  {
    if !clearOk {
      return s, ClearFailed;
    }
    var perPage := LinesPerPage(height);
    var clamped := s.(currentLine := ClampToTargets(s.currentLine, |targets|));
    if |targets| > 0 {
      ClampedCursorSettlesInPlace(s, |targets|, perPage);
    }
    var status, retries;
    s', status, retries := CalculatePage(clamped, |targets|, perPage);
    if status == NothingToDo {
      return s', NothingToDraw;
    }
    var prompt := DrawPrompt(g, l.prompt, style, view.query, view.caret,
                             s'.currentPage.index, s'.maxPage, width, height, indicatorWidth);
    if prompt.Failure? {
      return s', Panicked(prompt.error);
    }
    var rows := DrawList(g, style, l.list, s'.currentPage.offset, s'.currentLine,
                         view.selection, view.rangeSelection, targets, perPage, height);
    if rows.Failure? {
      return s', Panicked(rows.error);
    }
    outcome := Drawn(Frame(prompt.value, rows.value));
  }
}

=== FILE: listarea.dfy ===
/** The list area: one page of candidate lines, each coloured by its role
    (current line, saved selection, plain) and with its matched byte ranges
    highlighted. Drawing is modelled as the sequence of printScreen calls
    ("runs") each row issues. */
module ListArea {
  import opened Results
  import opened Attributes
  import opened Text
  import opened Anchors

  /** One matched byte range, Go's two-element []int{start, end}. */
  datatype Range = Range(start: int, end: int)

  /** A candidate: its line and its matched ranges; None when Indices()
      returns nil. */
  datatype Match = Match(line: seq<Byte>, indices: Option<seq<Range>>)

  /** Ranges as the matcher produces them: at least one, each inside the
      line, ascending and non-overlapping. */
  predicate WellFormedRanges(ranges: seq<Range>, n: int) {
    && |ranges| > 0
    && (forall i :: 0 <= i < |ranges| ==> 0 <= ranges[i].start <= ranges[i].end <= n)
    && (forall i, j :: 0 <= i < j < |ranges| ==> ranges[i].end <= ranges[j].start)
  }

  /** Which branch of the row drawing issued a run: the text before a range,
      a matched range, the final range drawn again in query colours, or the
      rest of the line (the whole line when there are no ranges). */
  datatype Segment = Gap | Hit | QueryTail | Rest

  /** The colours and fill flag each kind of run is drawn with, given the
      row's base colours. Highlights keep the row's background underneath. */
  predicate Looks(r: Run, k: Segment, style: Style, fg: Attr, bg: Attr) {
    match k
    case Gap => r.fg == fg && r.bg == bg && !r.fill
    case Hit => r.fg == style.matchedFG && r.bg == MergeAttribute(bg, style.matchedBG) && r.fill
    case QueryTail => r.fg == style.queryFG && r.bg == MergeAttribute(bg, style.queryBG) && r.fill
    case Rest => r.fg == fg && r.bg == bg && r.fill
  }

  /** The bytes of a row's runs, in drawing order. */
  function Texts(runs: seq<Run>): seq<Byte> {
    if |runs| == 0 then [] else Texts(runs[..|runs| - 1]) + runs[|runs| - 1].text
  }

  /** The columns a row's runs account for, by runewidth.StringWidth. */
  function SumWidths(g: Glyphs, runs: seq<Run>): nat {
    if |runs| == 0 then 0 else SumWidths(g, runs[..|runs| - 1]) + StringWidth(g, runs[|runs| - 1].text)
  }

  /** The texts of the highlighted runs, in drawing order. */
  function HitTexts(runs: seq<Run>, kinds: seq<Segment>): seq<seq<Byte>>
    requires |kinds| == |runs|
  {
    if |runs| == 0 then []
    else HitTexts(runs[..|runs| - 1], kinds[..|kinds| - 1])
         + (if kinds[|kinds| - 1] == Hit then [runs[|runs| - 1].text] else [])
  }

  /** Where the highlighted runs sit in the row's text: for each Hit run, in
      drawing order, the byte span it covers, counted from the start of
      the row's text. */
  function HitSpans(runs: seq<Run>, kinds: seq<Segment>): seq<(int, int)>
    requires |kinds| == |runs|
  {
    if |runs| == 0 then []
    else
      var n := |runs| - 1;
      var at := |Texts(runs[..n])|;
      HitSpans(runs[..n], kinds[..n]) + (if kinds[n] == Hit then [(at, at + |runs[n].text|)] else [])
  }

  /** The byte span of each range, in order. */
  function RangeSpans(ranges: seq<Range>): seq<(int, int)> {
    seq(|ranges|, i requires 0 <= i < |ranges| => (ranges[i].start, ranges[i].end))
  }

  /** The bytes each range covers. */
  function RangeTexts(line: seq<Byte>, ranges: seq<Range>): seq<seq<Byte>>
    requires forall i :: 0 <= i < |ranges| ==> 0 <= ranges[i].start <= ranges[i].end <= |line|
  {
    if |ranges| == 0 then []
    else RangeTexts(line, ranges[..|ranges| - 1])
         + [line[ranges[|ranges| - 1].start..ranges[|ranges| - 1].end]]
  }

  /** Runs of one row, one kind per run: all on row y, each starting at the
      column the runs before it account for, each drawn in the colours of
      its kind. */
  predicate RunsLaidOut(g: Glyphs, style: Style, runs: seq<Run>, kinds: seq<Segment>, y: int, fg: Attr, bg: Attr)
    decreases |runs|
  {
    && |kinds| == |runs|
    && (|runs| == 0 ||
        var n := |runs| - 1;
        && RunsLaidOut(g, style, runs[..n], kinds[..n], y, fg, bg)
        && runs[n].y == y
        && runs[n].x == SumWidths(g, runs[..n])
        && Looks(runs[n], kinds[n], style, fg, bg))
  }

  /** Every run so far is a gap or a hit: no tail has been drawn yet. */
  predicate NoTail(kinds: seq<Segment>) {
    forall j :: 0 <= j < |kinds| ==> kinds[j] == Gap || kinds[j] == Hit
  }

  /** Only the last run of a row may be a tail (QueryTail or Rest). */
  predicate TailIsLast(kinds: seq<Segment>) {
    forall j :: 0 <= j < |kinds| - 1 ==> kinds[j] == Gap || kinds[j] == Hit
  }

  lemma AppendRun(g: Glyphs, style: Style, runs: seq<Run>, kinds: seq<Segment>, y: int, fg: Attr, bg: Attr,
                  r: Run, k: Segment)
    requires RunsLaidOut(g, style, runs, kinds, y, fg, bg)
    requires r.y == y && r.x == SumWidths(g, runs) && Looks(r, k, style, fg, bg)
    ensures RunsLaidOut(g, style, runs + [r], kinds + [k], y, fg, bg)
    ensures SumWidths(g, runs + [r]) == SumWidths(g, runs) + StringWidth(g, r.text)
    ensures Texts(runs + [r]) == Texts(runs) + r.text
    ensures HitTexts(runs + [r], kinds + [k]) == HitTexts(runs, kinds) + (if k == Hit then [r.text] else [])
    ensures HitSpans(runs + [r], kinds + [k])
            == HitSpans(runs, kinds) + (if k == Hit then [(|Texts(runs)|, |Texts(runs)| + |r.text|)] else [])
  {
    assert (runs + [r])[..|runs|] == runs;
    assert (kinds + [k])[..|kinds|] == kinds;
  }

  /** A run that continues the line where the runs before it stopped keeps
      the runs a prefix of the line. */
  lemma TextsGrow(runs: seq<Run>, r: Run, line: seq<Byte>, index: int, end: int)
    requires 0 <= index <= end <= |line|
    requires Texts(runs) == line[..index] && r.text == line[index..end]
    ensures Texts(runs + [r]) == line[..end]
  {
    assert (runs + [r])[..|runs|] == runs;
    assert line[..index] + line[index..end] == line[..end];
  }

  /** Mid-walk: runs laid out, no tail yet, and the column cursor `prev` at
      the width of everything drawn so far. */
  predicate Walking(g: Glyphs, style: Style, runs: seq<Run>, kinds: seq<Segment>, y: int, fg: Attr, bg: Attr, prev: int) {
    RunsLaidOut(g, style, runs, kinds, y, fg, bg) && prev == SumWidths(g, runs) && NoTail(kinds)
  }

  /** Extending a walk with a gap or a hit that continues the line from
      byte `index` to byte `end`: the walk invariant survives, the column
      cursor moves by the run's width, and a hit is recorded with its text
      and, when the runs spell the line so far, its byte span. */
  lemma WalkExtended(g: Glyphs, style: Style, line: seq<Byte>, runs: seq<Run>, kinds: seq<Segment>,
                     y: int, fg: Attr, bg: Attr, prev: int, r: Run, k: Segment, index: int, end: int, wf: bool)
    requires Walking(g, style, runs, kinds, y, fg, bg, prev) && (k == Gap || k == Hit)
    requires r.y == y && r.x == prev && Looks(r, k, style, fg, bg)
    requires 0 <= index <= end <= |line| && r.text == line[index..end]
    requires wf ==> Texts(runs) == line[..index]
    ensures Walking(g, style, runs + [r], kinds + [k], y, fg, bg, prev + StringWidth(g, r.text))
    ensures HitTexts(runs + [r], kinds + [k]) == HitTexts(runs, kinds) + (if k == Hit then [r.text] else [])
    ensures k == Gap ==> HitSpans(runs + [r], kinds + [k]) == HitSpans(runs, kinds)
    ensures wf ==> Texts(runs + [r]) == line[..end]
    ensures wf && k == Hit ==> HitSpans(runs + [r], kinds + [k]) == HitSpans(runs, kinds) + [(index, end)]
  {
    AppendRun(g, style, runs, kinds, y, fg, bg, r, k);
    assert forall j :: 0 <= j < |kinds| ==> (kinds + [k])[j] == kinds[j];
    if wf {
      TextsGrow(runs, r, line, index, end);
    }
  }

  /** Closing a row that has no tail yet with one last run. */
  lemma CloseRow(kinds: seq<Segment>, k: Segment)
    requires NoTail(kinds)
    ensures TailIsLast(kinds + [k]) && TailIsLast(kinds)
    ensures QueryTail in kinds + [k] <==> k == QueryTail
    ensures QueryTail !in kinds
  {
    assert (kinds + [k])[|kinds|] == k;
    assert forall j :: 0 <= j < |kinds| ==> (kinds + [k])[j] == kinds[j];
  }

  /** The gap before a range starting at `start`: the line from the byte
      cursor up to `start`, in the row's colours, when the cursor is before
      it. Go panics when `start` lies past the end of the line. `wf` says the
      ranges are well formed, which puts the cursor on the line before
      `start`. */
  method WalkGap(g: Glyphs, style: Style, line: seq<Byte>, start: int, fg: Attr, bg: Attr, y: int,
                 index: nat, prev: int, runs: seq<Run>, kinds: seq<Segment>, ghost wf: bool)
    returns (ok: bool, index': nat, prev': int, runs': seq<Run>, kinds': seq<Segment>)
    requires Walking(g, style, runs, kinds, y, fg, bg, prev)
    requires wf ==> index <= start <= |line| && Texts(runs) == line[..index]
    ensures ok <==> start <= index || start <= |line|
    ensures !ok ==> index' == index && prev' == prev && runs' == runs && kinds' == kinds
    ensures ok ==> && Walking(g, style, runs', kinds', y, fg, bg, prev')
                   && HitTexts(runs', kinds') == HitTexts(runs, kinds)
                   && HitSpans(runs', kinds') == HitSpans(runs, kinds)
                   && index' == (if start > index then start else index)
                   && (wf ==> Texts(runs') == line[..index'])
  {
    index', prev', runs', kinds' := index, prev, runs, kinds;
    if start > index {
      if start > |line| {
        return false, index', prev', runs', kinds';
      }
      var c := line[index..start];
      var r := Run(prev, y, fg, bg, c, false);
      WalkExtended(g, style, line, runs, kinds, y, fg, bg, prev, r, Gap, index, start, wf);
      runs', kinds' := runs + [r], kinds + [Gap];
      prev' := prev + StringWidth(g, c);
      index' := index + |c|;
    }
    ok := true;
  }

  /** A matched range itself, in the matched colours over the row's
      background. Go panics when the range is not a slice of the line. */
  method WalkHit(g: Glyphs, style: Style, line: seq<Byte>, start: int, end: int, fg: Attr, bg: Attr, y: int,
                 index: nat, prev: int, runs: seq<Run>, kinds: seq<Segment>, ghost wf: bool)
    returns (ok: bool, index': nat, prev': int, runs': seq<Run>, kinds': seq<Segment>)
    requires Walking(g, style, runs, kinds, y, fg, bg, prev)
    requires wf ==> 0 <= start <= end <= |line| && index == start && Texts(runs) == line[..index]
    ensures ok <==> 0 <= start <= end <= |line|
    ensures !ok ==> index' == index && prev' == prev && runs' == runs && kinds' == kinds
    ensures ok ==> && Walking(g, style, runs', kinds', y, fg, bg, prev')
                   && HitTexts(runs', kinds') == HitTexts(runs, kinds) + [line[start..end]]
                   && index' == index + (end - start)
                   && (wf ==> Texts(runs') == line[..end])
                   && (wf ==> HitSpans(runs', kinds') == HitSpans(runs, kinds) + [(start, end)])
  {
    index', prev', runs', kinds' := index, prev, runs, kinds;
    if !(0 <= start <= end <= |line|) {
      return false, index', prev', runs', kinds';
    }
    var c := line[start..end];
    var r := Run(prev, y, style.matchedFG, MergeAttribute(bg, style.matchedBG), c, true);
    WalkExtended(g, style, line, runs, kinds, y, fg, bg, prev, r, Hit, start, end, wf);
    runs', kinds' := runs + [r], kinds + [Hit];
    prev' := prev + StringWidth(g, c);
    index' := index + |c|;
    ok := true;
  }

  /** In well-formed ranges each range starts where the previous one ended
      or later. */
  lemma NextRangeAhead(ranges: seq<Range>, n: int, i: int)
    requires WellFormedRanges(ranges, n) && 0 <= i < |ranges|
    ensures (if i == 0 then 0 else ranges[i - 1].end) <= ranges[i].start <= n
  {
    if i > 0 {
      assert ranges[i - 1].end <= ranges[i].start;
    }
  }

  lemma RangeTextsSnoc(line: seq<Byte>, ranges: seq<Range>, i: int)
    requires 0 <= i < |ranges|
    requires forall j :: 0 <= j <= i ==> 0 <= ranges[j].start <= ranges[j].end <= |line|
    ensures RangeTexts(line, ranges[..i + 1]) == RangeTexts(line, ranges[..i]) + [line[ranges[i].start..ranges[i].end]]
    ensures RangeSpans(ranges[..i + 1]) == RangeSpans(ranges[..i]) + [(ranges[i].start, ranges[i].end)]
  {
    assert ranges[..i + 1][..i] == ranges[..i];
  }

  /** The highlight walk of ListArea.Draw for one line with ranges: the gap
      before each range in the row's colours, each range in the matched
      colours, then either the last range again in query colours (when the
      byte cursor stopped before it) or the rest of the line. Slicing with
      bad bounds, or an empty range list, panics as in Go. With well-formed
      ranges the runs cover the line exactly, each range is highlighted once
      and in order at its own byte span, the query-colour branch is never
      taken, and the text after the last range, if any, is the filled last
      run in the row's colours. */
  method DrawHighlighted(g: Glyphs, style: Style, line: seq<Byte>, ranges: seq<Range>, fg: Attr, bg: Attr, y: int)
    returns (res: Result<seq<Run>>, kinds: seq<Segment>)
    ensures res.Success? ==> RunsLaidOut(g, style, res.value, kinds, y, fg, bg) && TailIsLast(kinds)
    ensures |ranges| == 0 ==> res.Failure?
    ensures WellFormedRanges(ranges, |line|) ==>
              && res.Success?
              && QueryTail !in kinds
              && Texts(res.value) == line
              && HitTexts(res.value, kinds) == RangeTexts(line, ranges)
              && HitSpans(res.value, kinds) == RangeSpans(ranges)
              && RestAfter(res.value, kinds, line, ranges[|ranges| - 1].end)
  {
    var ok, index, prev, runs;
    ok, index, prev, runs, kinds := WalkRanges(g, style, line, ranges, fg, bg, y);
    if !ok {
      return Failure(SliceOutOfRange), kinds;
    }
    if |ranges| == 0 {
      return Failure(IndexOutOfRange), kinds;
    }
    var m := ranges[|ranges| - 1];
    var last;
    last, kinds := WalkTail(g, style, line, m.start, m.end, fg, bg, y, index, prev, runs, kinds,
                            WellFormedRanges(ranges, |line|));
    res := Success(last);
  }

  /** The walk after the first i ranges: the runs so far are a well-laid
      prefix of the row, the ranges handled were slices of the line, and
      for well-formed ranges the byte cursor is at the end of range i-1,
      the runs spell the line up to it and the hits are ranges 0..i-1. */
  predicate WalkedTo(g: Glyphs, style: Style, line: seq<Byte>, ranges: seq<Range>, fg: Attr, bg: Attr, y: int,
                     i: int, index: int, prev: int, runs: seq<Run>, kinds: seq<Segment>, wf: bool)
  {
    && 0 <= i <= |ranges|
    && Walking(g, style, runs, kinds, y, fg, bg, prev)
    && (forall j :: 0 <= j < i ==> 0 <= ranges[j].start <= ranges[j].end <= |line|)
    && (wf ==> && index == (if i == 0 then 0 else ranges[i - 1].end)
               && Texts(runs) == line[..index]
               && HitTexts(runs, kinds) == RangeTexts(line, ranges[..i])
               && HitSpans(runs, kinds) == RangeSpans(ranges[..i]))
  }

  /** One iteration of the walk: the gap before range i, then range i. */
  method WalkStep(g: Glyphs, style: Style, line: seq<Byte>, ranges: seq<Range>, fg: Attr, bg: Attr, y: int,
                  i: int, index: nat, prev: int, runs: seq<Run>, kinds: seq<Segment>, ghost wf: bool)
    returns (ok: bool, index': nat, prev': int, runs': seq<Run>, kinds': seq<Segment>)
    requires i < |ranges| && wf == WellFormedRanges(ranges, |line|)
    requires WalkedTo(g, style, line, ranges, fg, bg, y, i, index, prev, runs, kinds, wf)
    ensures ok ==> WalkedTo(g, style, line, ranges, fg, bg, y, i + 1, index', prev', runs', kinds', wf)
    ensures !ok ==> !wf && Walking(g, style, runs', kinds', y, fg, bg, prev')
  {
    var m := ranges[i];
    if wf {
      NextRangeAhead(ranges, |line|, i);
    }
    ok, index', prev', runs', kinds' := WalkGap(g, style, line, m.start, fg, bg, y, index, prev, runs, kinds, wf);
    if !ok {
      return;
    }
    ok, index', prev', runs', kinds' := WalkHit(g, style, line, m.start, m.end, fg, bg, y, index', prev', runs', kinds', wf);
    if !ok {
      return;
    }
    if wf {
      RangeTextsSnoc(line, ranges, i);
    }
  }

  /** The loop over the ranges: a gap and a hit for each. Stops early, with
      `ok` false, where Go would panic on a slice. */
  method WalkRanges(g: Glyphs, style: Style, line: seq<Byte>, ranges: seq<Range>, fg: Attr, bg: Attr, y: int)
    returns (ok: bool, index: nat, prev: int, runs: seq<Run>, kinds: seq<Segment>)
    ensures Walking(g, style, runs, kinds, y, fg, bg, prev)
    ensures ok ==> forall j :: 0 <= j < |ranges| ==> 0 <= ranges[j].start <= ranges[j].end <= |line|
    ensures WellFormedRanges(ranges, |line|) ==>
              && ok
              && index == ranges[|ranges| - 1].end
              && Texts(runs) == line[..index]
              && HitTexts(runs, kinds) == RangeTexts(line, ranges)
              && HitSpans(runs, kinds) == RangeSpans(ranges)
  {
    ghost var wf := WellFormedRanges(ranges, |line|);
    runs, kinds := [], [];
    prev, index := 0, 0;
    var i := 0;
    while i < |ranges|
      invariant WalkedTo(g, style, line, ranges, fg, bg, y, i, index, prev, runs, kinds, wf)
      decreases |ranges| - i
    {
      ok, index, prev, runs, kinds := WalkStep(g, style, line, ranges, fg, bg, y, i, index, prev, runs, kinds, wf);
      if !ok {
        return;
      }
      i := i + 1;
    }
    assert ranges[..|ranges|] == ranges;
    ok := true;
  }

  /** Appending the one tail run a row may have. */
  lemma AppendTail(g: Glyphs, style: Style, runs: seq<Run>, kinds: seq<Segment>, y: int, fg: Attr, bg: Attr,
                   r: Run, k: Segment)
    requires RunsLaidOut(g, style, runs, kinds, y, fg, bg) && NoTail(kinds) && k != Hit
    requires r.y == y && r.x == SumWidths(g, runs) && Looks(r, k, style, fg, bg)
    ensures RunsLaidOut(g, style, runs + [r], kinds + [k], y, fg, bg) && TailIsLast(kinds + [k])
    ensures HitTexts(runs + [r], kinds + [k]) == HitTexts(runs, kinds)
    ensures HitSpans(runs + [r], kinds + [k]) == HitSpans(runs, kinds)
    ensures QueryTail in kinds + [k] <==> k == QueryTail
    ensures Texts(runs + [r]) == Texts(runs) + r.text
  {
    AppendRun(g, style, runs, kinds, y, fg, bg, r, k);
    CloseRow(kinds, k);
  }

  /** The end of a row after the last range, ending at byte `end`: the row
      closes with a Rest run exactly when the line goes on past `end`, and
      that run holds the rest of the line. Its colours and fill come with
      its kind. */
  predicate RestAfter(runs: seq<Run>, kinds: seq<Segment>, line: seq<Byte>, end: int)
    requires |kinds| == |runs| && 0 <= end <= |line|
  {
    && ((|kinds| > 0 && kinds[|kinds| - 1] == Rest) <==> |line| > end)
    && (|line| > end ==> runs[|runs| - 1].text == line[end..])
  }

  /** After the loop: the last range again in query colours when the byte
      cursor is before it, else the rest of the line if any. The last range
      has already been sliced once, so neither branch can panic. */
  method WalkTail(g: Glyphs, style: Style, line: seq<Byte>, start: int, end: int, fg: Attr, bg: Attr, y: int,
                  index: nat, prev: int, runs: seq<Run>, kinds: seq<Segment>, ghost wf: bool)
    returns (runs': seq<Run>, kinds': seq<Segment>)
    requires 0 <= start <= end <= |line|
    requires Walking(g, style, runs, kinds, y, fg, bg, prev)
    requires wf ==> index == end && Texts(runs) == line[..index]
    ensures RunsLaidOut(g, style, runs', kinds', y, fg, bg) && TailIsLast(kinds')
    ensures HitTexts(runs', kinds') == HitTexts(runs, kinds)
    ensures HitSpans(runs', kinds') == HitSpans(runs, kinds)
    ensures start > index <==> QueryTail in kinds'
    ensures start > index ==>
              && runs' == runs + [Run(prev, y, style.queryFG, MergeAttribute(bg, style.queryBG), line[start..end], true)]
              && kinds' == kinds + [QueryTail]
    ensures start <= index && |line| > end ==>
              runs' == runs + [Run(prev, y, fg, bg, line[end..], true)] && kinds' == kinds + [Rest]
    ensures start <= index && |line| <= end ==> runs' == runs && kinds' == kinds
    ensures wf ==> Texts(runs') == line
  {
    if start > index {
      var r := Run(prev, y, style.queryFG, MergeAttribute(bg, style.queryBG), line[start..end], true);
      AppendTail(g, style, runs, kinds, y, fg, bg, r, QueryTail);
      return runs + [r], kinds + [QueryTail];
    } else if |line| > end {
      var r := Run(prev, y, fg, bg, line[end..], true);
      AppendTail(g, style, runs, kinds, y, fg, bg, r, Rest);
      if wf {
        TextsGrow(runs, r, line, end, |line|);
        assert line[..|line|] == line;
      }
      return runs + [r], kinds + [Rest];
    } else {
      CloseRow(kinds, Rest);
      if wf {
        assert line[..index] == line;
      }
      return runs, kinds;
    }
  }

  /** One drawn list slot: its row, its colours, and the runs drawn on it. */
  datatype Row = Row(y: int, fg: Attr, bg: Attr, runs: seq<Run>, kinds: seq<Segment>)

  /** What a row shows for a candidate: runs laid out left to right in the
      colours of their kinds, at most one tail and only at the end; a
      candidate without ranges as one filled run of the whole line; one with
      well-formed ranges as runs that spell the line, highlighting exactly
      its ranges at their own byte spans, in order, and closing with the
      rest of the line as a filled run. */
  predicate ShowsCandidate(g: Glyphs, style: Style, t: Match, row: Row) {
    && RunsLaidOut(g, style, row.runs, row.kinds, row.y, row.fg, row.bg)
    && TailIsLast(row.kinds)
    && (t.indices.None? ==> row.runs == [Run(0, row.y, row.fg, row.bg, t.line, true)] && row.kinds == [Rest])
    && (t.indices.Some? && WellFormedRanges(t.indices.value, |t.line|) ==>
          && QueryTail !in row.kinds
          && Texts(row.runs) == t.line
          && HitTexts(row.runs, row.kinds) == RangeTexts(t.line, t.indices.value)
          && HitSpans(row.runs, row.kinds) == RangeSpans(t.indices.value)
          && RestAfter(row.runs, row.kinds, t.line, t.indices.value[|t.indices.value| - 1].end))
  }

  /** One iteration of ListArea.Draw once the row and colours are known:
      the whole line when Indices() is nil, the highlight walk otherwise
      (which panics on a non-nil empty range list). */
  method DrawRow(g: Glyphs, style: Style, t: Match, y: int, fg: Attr, bg: Attr) returns (res: Result<Row>)
    ensures res.Success? ==> && res.value.y == y && res.value.fg == fg && res.value.bg == bg
                             && ShowsCandidate(g, style, t, res.value)
    ensures t.indices.None? || WellFormedRanges(t.indices.value, |t.line|) ==> res.Success?
    ensures t.indices == Some([]) ==> res.Failure?
  {
    match t.indices {
      case None =>
        var r := Run(0, y, fg, bg, t.line, true);
        AppendRun(g, style, [], [], y, fg, bg, r, Rest);
        assert [] + [r] == [r];
        assert TailIsLast([Rest]);
        return Success(Row(y, fg, bg, [r], [Rest]));
      case Some(ranges) =>
        var runs, kinds := DrawHighlighted(g, style, t.line, ranges, fg, bg, y);
        if runs.Failure? {
          return Failure(runs.error);
        }
        return Success(Row(y, fg, bg, runs.value, kinds));
    }
  }

  /** ListArea: where the list is anchored and which way it grows. */
  datatype ListArea = ListArea(settings: AnchorSettings, sortTopDown: bool)

  /** NewListArea: panics, through NewAnchorSettings, on an unknown anchor. */
  function NewListArea(anchor: VerticalAnchor, anchorOffset: int, sortTopDown: bool): (r: Result<ListArea>)
    ensures r.Success? <==> IsValidVerticalAnchor(anchor)
    ensures r.Success? ==> r.value == ListArea(AnchorSettings(anchor, anchorOffset), sortTopDown)
  {
    var settings :- NewAnchorSettings(anchor, anchorOffset);
    Success(ListArea(settings, sortTopDown))
  }

  /** The screen row of list slot n: growing down from the anchor row in
      top-down order, up from it otherwise. */
  function SlotRow(sortTopDown: bool, start: int, n: int): int {
    if sortTopDown then start + n else start - n
  }

  /** The colours of the row showing candidate k (0-based): the cursor line
      first, then saved selections (the selection set or the range being
      selected, both keyed by 1-based line number), else the basic colours. */
  function RowColours(style: Style, k: int, currentLine: int, selection: set<int>, rangeSelection: set<int>): (Attr, Attr) {
    if k == currentLine - 1 then (style.selectedFG, style.selectedBG)
    else if k + 1 in selection || k + 1 in rangeSelection then (style.savedSelectionFG, style.savedSelectionBG)
    else (style.basicFG, style.basicBG)
  }

  /** How many slots ListArea.Draw fills: up to perPage, stopping at the end
      of the candidate list. */
  function SlotsDrawn(perPage: int, offset: int, count: nat): nat {
    if perPage <= 0 then 0
    else if count - offset < perPage then (if count - offset < 0 then 0 else count - offset)
    else perPage
  }

  /** Slot n as ListArea.Draw leaves it. */
  predicate SlotDrawn(g: Glyphs, style: Style, sortTopDown: bool, start: int, offset: int, currentLine: int,
                      selection: set<int>, rangeSelection: set<int>, targets: seq<Match>, n: int, row: Row)
    requires 0 <= offset + n < |targets|
  {
    var k := offset + n;
    && row.y == SlotRow(sortTopDown, start, n)
    && (k == currentLine - 1 ==> row.fg == style.selectedFG && row.bg == style.selectedBG)
    && (k != currentLine - 1 && (k + 1 in selection || k + 1 in rangeSelection) ==>
          row.fg == style.savedSelectionFG && row.bg == style.savedSelectionBG)
    && (k != currentLine - 1 && k + 1 !in selection && k + 1 !in rangeSelection ==>
          row.fg == style.basicFG && row.bg == style.basicBG)
    && ShowsCandidate(g, style, targets[k], row)
  }

  /** Every drawn row is its slot as ListArea.Draw leaves it: row n shows
      the candidate at offset + n. */
  predicate RowsDrawn(g: Glyphs, style: Style, sortTopDown: bool, start: int, offset: int, currentLine: int,
                      selection: set<int>, rangeSelection: set<int>, targets: seq<Match>, rows: seq<Row>)
  {
    forall n :: 0 <= n < |rows| ==>
      0 <= offset + n < |targets|
      && SlotDrawn(g, style, sortTopDown, start, offset, currentLine, selection, rangeSelection, targets, n, rows[n])
  }

  /** Slot n of the page: its colours, its row, and the candidate drawn on
      it. */
  method DrawSlot(g: Glyphs, style: Style, sortTopDown: bool, start: int, offset: int, currentLine: int,
                  selection: set<int>, rangeSelection: set<int>, targets: seq<Match>, n: int)
    returns (res: Result<Row>)
    requires 0 <= offset + n < |targets|
    ensures res.Success? ==>
              SlotDrawn(g, style, sortTopDown, start, offset, currentLine, selection, rangeSelection, targets, n, res.value)
    ensures var t := targets[offset + n];
            t.indices.None? || WellFormedRanges(t.indices.value, |t.line|) ==> res.Success?
  {
    var (fg, bg) := RowColours(style, offset + n, currentLine, selection, rangeSelection);
    res := DrawRow(g, style, targets[offset + n], SlotRow(sortTopDown, start, n), fg, bg);
  }

  /** ListArea.Draw: one row per slot of the current page, from the page
      offset on, until perPage slots or the candidates run out. Panics on an
      unknown anchor, a negative offset, or a row whose ranges panic. */
  method DrawList(g: Glyphs, style: Style, area: ListArea, offset: int, currentLine: int,
                  selection: set<int>, rangeSelection: set<int>, targets: seq<Match>, perPage: int, height: int)
    returns (res: Result<seq<Row>>)
    ensures res.Success? ==> IsValidVerticalAnchor(area.settings.anchor)
    ensures res.Success? ==>
              var rows := res.value;
              var start := AnchorPosition(area.settings, height).value;
              && |rows| == SlotsDrawn(perPage, offset, |targets|)
              && RowsDrawn(g, style, area.sortTopDown, start, offset, currentLine,
                           selection, rangeSelection, targets, rows)
    ensures && IsValidVerticalAnchor(area.settings.anchor)
            && (offset >= 0 || perPage <= 0)
            && (forall k :: offset <= k < offset + SlotsDrawn(perPage, offset, |targets|) ==>
                  targets[k].indices.None? || WellFormedRanges(targets[k].indices.value, |targets[k].line|))
            ==> res.Success?
  {
    var start :- AnchorPosition(area.settings, height);
    var rows: seq<Row> := [];
    var n := 0;
    while n < perPage
      invariant 0 <= n && |rows| == n
      invariant n <= SlotsDrawn(perPage, offset, |targets|)
      invariant n > 0 ==> 0 <= offset && offset + n <= |targets|
      invariant RowsDrawn(g, style, area.sortTopDown, start, offset, currentLine,
                          selection, rangeSelection, targets, rows)
      decreases perPage - n
    {
      var k := offset + n;
      if k >= |targets| {
        break;
      }
      if k < 0 {
        return Failure(IndexOutOfRange);
      }
      var row :- DrawSlot(g, style, area.sortTopDown, start, offset, currentLine, selection, rangeSelection, targets, n);
      ghost var rows0 := rows;
      rows := rows + [row];
      assert rows[n] == row;
      assert forall j :: 0 <= j < n ==> rows[j] == rows0[j];
      n := n + 1;
    }
    return Success(rows);
  }
}

=== FILE: paging.dfy ===
/** The page controller: which window of the candidate list is visible, and
    how paging requests move the cursor. */
module Paging {
  import opened Results

  /** Ctx.currentPage: the visible window, 1-based page index, 0-based item
      offset of its first line, and the page size. */
  datatype Page = Page(index: int, offset: int, perPage: int)

  /** The part of the shared context that paging reads and writes.
      `current` is the length of Ctx.current, None when that slice is nil;
      `queryLen` is Ctx.QueryLen(). */
  datatype PagingState = PagingState(
    currentLine: int,
    currentPage: Page,
    maxPage: int,
    current: Option<nat>,
    queryLen: nat)

  /** Go's integer division, which truncates toward zero. */
  function GoDiv(a: int, b: int): int
    requires b != 0
  {
    var q := (if a < 0 then -a else a) / (if b < 0 then -b else b);
    if (a < 0) == (b < 0) then q else -q
  }

  lemma MulLeftMono(a: int, b: int, c: int)
    requires a <= b && c >= 0
    ensures a * c <= b * c
  {
  }

  /** The page index CalculatePage derives from a cursor line: Go's
      truncating quotient plus one, clamped to at least 1. It is the page
      that holds the line, and page 1 for any line before the first. */
  function PageIndexOf(line: int, perPage: int): (index: int)
    requires perPage >= 1
    ensures index >= 1
    ensures line <= 1 ==> index == 1
    ensures line >= 1 ==> (index - 1) * perPage < line <= index * perPage
  {
    var i := GoDiv(line - 1, perPage) + 1;
    if i <= 0 then 1 else i
  }

  /** Because of the clamp, Go's truncating division and Dafny's Euclidean
      division give the same page index for every line. */
  lemma TruncationAgreesAfterClamp(line: int, perPage: int)
    requires perPage >= 1
    ensures var e := (line - 1) / perPage + 1;
            PageIndexOf(line, perPage) == if e <= 0 then 1 else e
  {
  }

  /** A line that is a whole number of pages lies on that page. */
  lemma {:induction false} PageOfPageEnd(k: int, perPage: int)
    requires k >= 1 && perPage >= 1
    ensures PageIndexOf(k * perPage, perPage) == k
  {
    var i := PageIndexOf(k * perPage, perPage);
    if i < k {
      MulLeftMono(i, k - 1, perPage);
    } else if i > k {
      MulLeftMono(k, i - 1, perPage);
    }
  }

  /** A line is on a page no later than `m` exactly when it is no further
      than `m` full pages. */
  lemma {:induction false} PageIndexAtMost(line: int, m: int, perPage: int)
    requires m >= 1 && perPage >= 1
    ensures PageIndexOf(line, perPage) <= m <==> line <= m * perPage
  {
    var i := PageIndexOf(line, perPage);
    if line >= 1 {
      if i <= m {
        MulLeftMono(i, m, perPage);
      } else {
        MulLeftMono(m, i - 1, perPage);
      }
    } else {
      MulLeftMono(1, m, perPage);
    }
  }

  /** Ctx.maxPage as CalculatePage sets it: the number of pages the targets
      fill, rounded up, and 1 for an empty list. */
  function MaxPages(targets: nat, perPage: int): (m: int)
    requires perPage >= 1
    ensures m >= 1
    ensures targets == 0 ==> m == 1
    ensures targets > 0 ==> (m - 1) * perPage < targets <= m * perPage
  {
    if targets == 0 then 1 else GoDiv(targets + perPage - 1, perPage)
  }

  /** Whether CalculatePage settled on a page or gave up on an empty frame. */
  datatype PageStatus = Settled | NothingToDo

  /** The page state CalculatePage writes for cursor line `line`. */
  function PageAt(s: PagingState, line: int, targets: nat, perPage: int): PagingState
    requires perPage >= 1
  {
    var index := PageIndexOf(line, perPage);
    s.(currentLine := line,
       currentPage := Page(index, (index - 1) * perPage, perPage),
       maxPage := MaxPages(targets, perPage))
  }

  /** CalculatePage in a single pass: keep the cursor if it lies within the
      last page, otherwise give up on an empty frame (no targets and no
      query), otherwise move the cursor to the end of the last page. */
  function SinglePassPage(s: PagingState, targets: nat, perPage: int): (PagingState, PageStatus)
    requires perPage >= 1
  {
    var maxPage := MaxPages(targets, perPage);
    if s.currentLine <= maxPage * perPage then (PageAt(s, s.currentLine, targets, perPage), Settled)
    else if targets == 0 && s.queryLen == 0 then (PageAt(s, s.currentLine, targets, perPage), NothingToDo)
    else (PageAt(s, maxPage * perPage, targets, perPage), Settled)
  }

  /** CalculatePage: computes the page holding the cursor; while that page
      lies past the last one, moves the cursor to the start of its window
      (the last line of the page before) and tries again. Each retry lowers
      the page index by exactly one; `retries` counts the jumps back. The page fields and maxPage are written
      on every pass, including the one that reports NothingToDo. */
  method CalculatePage(s: PagingState, targets: nat, perPage: int)
    returns (s': PagingState, status: PageStatus, retries: nat)
    requires perPage >= 1
    ensures (s', status) == SinglePassPage(s, targets, perPage)
    ensures var first := PageIndexOf(s.currentLine, perPage);
            retries == if status == Settled && first > s'.maxPage then first - s'.maxPage else 0
    ensures status == NothingToDo <==> targets == 0 && s.queryLen == 0 && s.currentLine > perPage
    ensures s'.maxPage == MaxPages(targets, perPage)
    ensures s'.currentPage.perPage == perPage
    ensures s'.currentPage.offset == (s'.currentPage.index - 1) * perPage
    ensures status == Settled ==> 1 <= s'.currentPage.index <= s'.maxPage
    ensures status == Settled && s'.currentLine >= 1 ==>
              s'.currentPage.offset < s'.currentLine <= s'.currentPage.offset + perPage
    ensures s.currentLine <= s'.maxPage * perPage || status == NothingToDo ==> s'.currentLine == s.currentLine
    ensures s'.current == s.current && s'.queryLen == s.queryLen
  {
    ghost var maxPages := MaxPages(targets, perPage);
    s' := s;
    retries := 0;
    while true
      invariant s'.current == s.current && s'.queryLen == s.queryLen
      invariant retries == PageIndexOf(s.currentLine, perPage) - PageIndexOf(s'.currentLine, perPage)
      invariant s'.currentLine != s.currentLine ==>
                  && !(targets == 0 && s.queryLen == 0)
                  && s.currentLine > maxPages * perPage
                  && PageIndexOf(s'.currentLine, perPage) >= maxPages
                  && s'.currentLine == PageIndexOf(s'.currentLine, perPage) * perPage
      decreases PageIndexOf(s'.currentLine, perPage)
    {
      var index := GoDiv(s'.currentLine - 1, perPage) + 1;
      if index <= 0 {
        index := 1;
      }
      var offset := (index - 1) * perPage;
      var maxPage := if targets == 0 then 1 else GoDiv(targets + perPage - 1, perPage);
      s' := s'.(currentPage := Page(index, offset, perPage), maxPage := maxPage);
      PageIndexAtMost(s'.currentLine, maxPage, perPage);
      if maxPage < index {
        if targets == 0 && s'.queryLen == 0 {
          return s', NothingToDo, 0;
        }
        PageOfPageEnd(index - 1, perPage);
        s' := s'.(currentLine := offset);
        retries := retries + 1;
      } else {
        if s'.currentLine != s.currentLine {
          assert index == maxPage;
        }
        return s', Settled, retries;
      }
    }
  }

  /** DrawScreen's clamp: a cursor past the end of a non-empty list is moved
      to its last line. */
  function ClampToTargets(line: int, targets: nat): (r: int)
    ensures targets > 0 ==> r <= targets
    ensures r == line || (targets > 0 && line > targets && r == targets)
  {
    if line > targets && targets > 0 then targets else line
  }

  /** After the clamp a non-empty list never needs a retry: CalculatePage
      settles on the page of the clamped cursor and leaves it in place. */
  lemma ClampedCursorSettlesInPlace(s: PagingState, targets: nat, perPage: int)
    requires perPage >= 1 && targets > 0
    ensures var line := ClampToTargets(s.currentLine, targets);
            var r := SinglePassPage(s.(currentLine := line), targets, perPage);
            && r.1 == Settled
            && r.0.currentLine == line
            && r.0.currentPage.index == PageIndexOf(line, perPage)
  {
    var line := ClampToTargets(s.currentLine, targets);
    assert line <= MaxPages(targets, perPage) * perPage;
  }

  /** A list that shrinks under the cursor: 21 on pages of 10 with five
      items settles on page 1 after two retries, cursor at line 10. */
  lemma ShrunkListSettlesOnFirstPage(s: PagingState)
    requires s.currentLine == 21
    ensures var r := SinglePassPage(s, 5, 10);
            r.1 == Settled && r.0.currentPage == Page(1, 0, 10) && r.0.currentLine == 10 && r.0.maxPage == 1
  {
  }

  /** PagingRequest values this layout reacts to; any other request leaves
      the cursor where it is before wrapping. */
  datatype PagingRequest = ToLineAbove | ToLineBelow | ToScrollPageDown | ToScrollPageUp | OtherRequest

  /** linesPerPage: the list area is the screen minus the prompt row and the
      status row; only a screen of three rows or more has room for a line. */
  function LinesPerPage(height: int): (perPage: int)
    ensures perPage + 2 == height
    ensures perPage >= 1 <==> height >= 3
  {
    height - 2
  }

  /** How far a request moves the cursor in top-down orientation. */
  function TopDownStep(p: PagingRequest, perPage: int): int {
    match p
    case ToLineAbove => -1
    case ToLineBelow => 1
    case ToScrollPageDown => perPage
    case ToScrollPageUp => -perPage
    case OtherRequest => 0
  }

  /** How far a request moves the cursor in the given orientation. The
      bottom-up list is drawn upward, so each request moves the cursor the
      other way round and the highlighted row still moves on screen in the
      direction the key names. */
  function CursorStep(sortTopDown: bool, p: PagingRequest, perPage: int): (d: int)
    ensures sortTopDown ==> d == TopDownStep(p, perPage)
    ensures !sortTopDown ==> d == -TopDownStep(p, perPage)
  {
    if sortTopDown then
      match p
      case ToLineAbove => -1
      case ToLineBelow => 1
      case ToScrollPageDown => perPage
      case ToScrollPageUp => -perPage
      case OtherRequest => 0
    else
      match p
      case ToLineAbove => 1
      case ToLineBelow => -1
      case ToScrollPageDown => -perPage
      case ToScrollPageUp => perPage
      case OtherRequest => 0
  }

  /** MovePage's wrap-around: before the first line goes to the last line of
      Ctx.current when that list is known (to 1 otherwise); past the last
      known line goes back to line 1. */
  function WrapCursor(line: int, current: Option<nat>): (r: int)
    ensures current.Some? && current.value >= 1 ==> 1 <= r <= current.value
    ensures current.None? ==> r >= 1
    ensures current.Some? && current.value == 0 ==> r == 0 || r == 1
    ensures (current.None? && line >= 1) || (current.Some? && 1 <= line <= current.value) ==> r == line
    ensures line < 1 ==> r == (if current.Some? then current.value else 1)
    ensures current.Some? && line > current.value ==> r == 1
  {
    if line < 1 then
      if current.Some? then current.value else 1
    else if current.Some? && line > current.value then 1
    else line
  }

  /** MovePage: moves the cursor for one request, then wraps it. Nothing but
      the cursor changes; with a known non-empty list the cursor ends inside
      it, and with an unknown list it ends on a line at least 1. */
  function MovePage(s: PagingState, sortTopDown: bool, p: PagingRequest, height: int): (s': PagingState)
    ensures s' == s.(currentLine := s'.currentLine)
    ensures s.current.Some? && s.current.value >= 1 ==> 1 <= s'.currentLine <= s.current.value
    ensures s.current.None? ==> s'.currentLine >= 1
  {
    s.(currentLine := WrapCursor(s.currentLine + CursorStep(sortTopDown, p, LinesPerPage(height)), s.current))
  }

  /** A request the layout does not handle only wraps the cursor. */
  lemma OtherRequestOnlyWraps(s: PagingState, sortTopDown: bool, height: int)
    ensures MovePage(s, sortTopDown, OtherRequest, height).currentLine == WrapCursor(s.currentLine, s.current)
  {
  }

  /** Opposite requests undo each other when neither wraps: a line down
      followed by a line up (or a page down followed by a page up) returns
      to the starting state, in either orientation. */
  lemma {:induction false} OppositeMovesCancel(s: PagingState, sortTopDown: bool, p: PagingRequest, q: PagingRequest, height: int)
    requires (p, q) == (ToLineBelow, ToLineAbove) || (p, q) == (ToLineAbove, ToLineBelow)
          || (p, q) == (ToScrollPageDown, ToScrollPageUp) || (p, q) == (ToScrollPageUp, ToScrollPageDown)
    requires s.current.Some?
    requires 1 <= s.currentLine <= s.current.value
    requires 1 <= s.currentLine + CursorStep(sortTopDown, p, LinesPerPage(height)) <= s.current.value
    ensures MovePage(MovePage(s, sortTopDown, p, height), sortTopDown, q, height) == s
  {
    var s1 := MovePage(s, sortTopDown, p, height);
    assert s1.currentLine == s.currentLine + CursorStep(sortTopDown, p, LinesPerPage(height));
    assert CursorStep(sortTopDown, q, LinesPerPage(height)) == -CursorStep(sortTopDown, p, LinesPerPage(height));
  }
}

=== FILE: prompt.dfy ===
/** The query prompt: prefix, query text with a caret, and the page
    indicator at the right edge. */
module Prompt {
  import opened Results
  import opened Attributes
  import opened Text
  import opened Anchors

  /** UserPrompt: where the prompt goes and the prefix drawn before the
      query, with its display width. */
  datatype UserPrompt = UserPrompt(settings: AnchorSettings, prefix: seq<Byte>, prefixLen: int)

  /** "QUERY>" */
  const DefaultPrefix: seq<Byte> := [0x51, 0x55, 0x45, 0x52, 0x59, 0x3E]

  /** NewUserPrompt: the configured prompt, or "QUERY>" when none is set.
      The anchor is stored as given, without NewAnchorSettings' check. */
  function NewUserPrompt(g: Glyphs, configPrompt: seq<Byte>, anchor: VerticalAnchor, anchorOffset: int): (u: UserPrompt)
    ensures u.settings == AnchorSettings(anchor, anchorOffset)
    ensures |u.prefix| > 0
    ensures |configPrompt| > 0 ==> u.prefix == configPrompt
    ensures |configPrompt| == 0 ==> u.prefix == DefaultPrefix
    ensures u.prefixLen == StringWidth(g, u.prefix)
  {
    var prefix := if |configPrompt| <= 0 then DefaultPrefix else configPrompt;
    UserPrompt(AnchorSettings(anchor, anchorOffset), prefix, StringWidth(g, prefix))
  }

  /** The caret sanity clamp: the caret is kept within the query. */
  function ClampCaret(caret: int, queryLen: nat): (r: int)
    ensures 0 <= r <= queryLen
    ensures 0 <= caret <= queryLen ==> r == caret
    ensures caret < 0 ==> r == 0
    ensures caret > queryLen ==> r == queryLen
  {
    var c := if caret <= 0 then 0 else caret;
    if c > queryLen then queryLen else c
  }

  /** How the query itself is drawn. With the caret after the last rune the
      query is printed whole in the colours `textFG`/`textBG`, followed by
      one reversed blank cell and a filled empty run to the edge; otherwise
      every rune gets its own cell and the caret is the rune drawn reversed. */
  datatype QueryDraw =
    | CaretAtEnd(text: seq<Rune>, textX: int, textFG: Attr, textBG: Attr, caretCell: Cell, fill: Run)
    | CaretInside(cells: seq<Cell>)

  /** Everything the prompt draws on its row. The page indicator starts at
      `indicatorX` in the colours `indicatorFG`/`indicatorBG`; `pageLabel`
      is the page index and page count it reports; `caret` is the clamped
      caret written back to the context. */
  datatype PromptDraw = PromptDraw(
    row: int,
    prefix: Run,
    query: QueryDraw,
    indicatorX: int,
    indicatorFG: Attr,
    indicatorBG: Attr,
    pageLabel: (int, int),
    caret: int)

  /** The attributes of the query rune at position i. */
  function QueryAttrs(style: Style, i: int, caret: int): (Attr, Attr) {
    if i == caret then (style.queryFG | AttrReverse, style.queryBG | AttrReverse)
    else (style.queryFG, style.queryBG)
  }

  /** The per-rune loop used when the caret is inside the query. */
  method QueryCells(g: Glyphs, style: Style, query: seq<Rune>, caret: int, x: int, row: int)
    returns (cells: seq<Cell>)
    ensures |cells| == |query|
    ensures forall i :: 0 <= i < |query| ==>
              cells[i] == Cell(x + RunesWidth(g, query[..i]), row, query[i],
                               QueryAttrs(style, i, caret).0, QueryAttrs(style, i, caret).1)
  {
    cells := [];
    var prev := 0;
    var i := 0;
    while i < |query|
      invariant 0 <= i <= |query|
      invariant |cells| == i
      invariant prev == RunesWidth(g, query[..i])
      invariant forall j :: 0 <= j < i ==>
                  cells[j] == Cell(x + RunesWidth(g, query[..j]), row, query[j],
                                   QueryAttrs(style, j, caret).0, QueryAttrs(style, j, caret).1)
    {
      var fg := style.queryFG;
      var bg := style.queryBG;
      if i == caret {
        fg := fg | AttrReverse;
        bg := bg | AttrReverse;
      }
      cells := cells + [Cell(x + prev, row, query[i], fg, bg)];
      assert query[..i + 1] == query[..i] + [query[i]];
      RunesWidthAppend(g, query[..i], [query[i]]);
      prev := prev + g.runeWidth(query[i]);
      i := i + 1;
    }
  }

  /** UserPrompt.Draw. The query is taken as runes; its string form is
      assumed to measure as the sum of its runes' widths. The indicator
      text is not modelled, only its display width, so that it ends exactly
      at the right edge of the screen. */
  method DrawPrompt(g: Glyphs, u: UserPrompt, style: Style, query: seq<Rune>, caret: int,
                    pageIndex: int, maxPage: int, screenWidth: int, height: int, indicatorWidth: nat)
    returns (r: Result<PromptDraw>)
    ensures r.Success? <==> IsValidVerticalAnchor(u.settings.anchor)
    ensures r.Success? ==>
              var d := r.value;
              && d.row == AnchorPosition(u.settings, height).value
              && d.prefix == Run(0, d.row, style.basicFG, style.basicBG, u.prefix, false)
              && 0 <= d.caret <= |query|
              && (0 <= caret <= |query| ==> d.caret == caret)
              && (d.query.CaretAtEnd? <==> d.caret == |query|)
              && d.caret == ClampCaret(caret, |query|)
              && d.indicatorX + indicatorWidth == screenWidth
              && (d.indicatorFG, d.indicatorBG) == (style.basicFG, style.basicBG)
              && d.pageLabel == (pageIndex, maxPage)
    ensures r.Success? && r.value.query.CaretAtEnd? ==>
              var q := r.value.query;
              && q.text == query
              && q.textX == u.prefixLen + 1
              && (q.textFG, q.textBG) == (style.queryFG, style.queryBG)
              && q.caretCell == Cell(u.prefixLen + 1 + RunesWidth(g, query), r.value.row, Space,
                                     style.queryFG | AttrReverse, style.queryBG | AttrReverse)
              && q.fill == Run(q.caretCell.x + 1, r.value.row, style.queryFG, style.queryBG, [], true)
    ensures r.Success? && r.value.query.CaretInside? ==>
              var cells := r.value.query.cells;
              && |cells| == |query|
              && forall i :: 0 <= i < |query| ==>
                   && cells[i].x == u.prefixLen + 1 + RunesWidth(g, query[..i])
                   && cells[i].ch == query[i]
                   && cells[i].y == r.value.row
                   && (cells[i].fg, cells[i].bg) == QueryAttrs(style, i, r.value.caret)
  {
    AnchorPositionPanicsOnlyWhenInvalid(u.settings, height);
    var location :- AnchorPosition(u.settings, height);
    var prefix := Run(0, location, style.basicFG, style.basicBG, u.prefix, false);
    var pos := ClampCaret(caret, |query|);
    var q: QueryDraw;
    if pos == |query| {
      var ql := RunesWidth(g, query);
      q := CaretAtEnd(query, u.prefixLen + 1, style.queryFG, style.queryBG,
                      Cell(u.prefixLen + 1 + ql, location, Space, style.queryFG | AttrReverse, style.queryBG | AttrReverse),
                      Run(u.prefixLen + 1 + ql + 1, location, style.queryFG, style.queryBG, [], true));
    } else {
      var cells := QueryCells(g, style, query, pos, u.prefixLen + 1, location);
      q := CaretInside(cells);
    }
    return Success(PromptDraw(location, prefix, q, screenWidth - indicatorWidth, style.basicFG, style.basicBG,
                              (pageIndex, maxPage), pos));
  }
}

=== FILE: results.dfy ===
/** Failure-compatible wrappers shared by the layout model.

    Go's `nil` versus non-nil is modelled with `Option`; a Go `panic` that the
    layout code can reach is modelled as `Failure` of a `Result`, carrying the
    reason it would panic. */
module Results {

  /** A value that may be absent (a nil slice or pointer in Go). */
  datatype Option<+T> = None | Some(value: T)

  /** The places where the modelled Go code panics. */
  datatype Panic =
    | InvalidAnchor     // NewAnchorSettings on an unknown vertical anchor
    | UnknownAnchor     // AnchorPosition on settings that bypassed validation
    | SliceOutOfRange   // a string slice line[lo:hi] with bad bounds
    | IndexOutOfRange   // matches[len(matches)-1] on an empty, non-nil slice

  /** The outcome of a computation that may panic. */
  datatype Result<+T> = Success(value: T) | Failure(error: Panic) {

    predicate IsFailure() {
      Failure?
    }

    function PropagateFailure<U>(): Result<U>
      requires Failure?
    {
      Failure(error)
    }

    function Extract(): T
      requires Success?
    {
      value
    }
  }
}

=== FILE: status.dfy ===
/** The status bar: a right-aligned, reverse-video message on its own row,
    truncated from the front to fit, with an optional auto-clear timer. */
module StatusBar {
  import opened Results
  import opened Attributes
  import opened Text
  import opened Anchors

  /** No rune is displayed wider than the bytes it is encoded in. The
      truncation loop below subtracts byte lengths from a display width, and
      only terminates under this assumption on the width function. */
  ghost predicate NarrowGlyphs(g: Glyphs) {
    forall s: seq<Byte> {:trigger g.decode(s)} :: |s| > 0 ==> g.runeWidth(g.decode(s).rune) <= Advance(g, s)
  }

  /** `t` is what remains of `s` after dropping zero or more whole leading
      runes. */
  predicate RuneSuffix(g: Glyphs, t: seq<Byte>, s: seq<Byte>)
    decreases |s|
  {
    t == s || (|s| > 0 && RuneSuffix(g, t, s[Advance(g, s)..]))
  }

  lemma {:induction false} NarrowWidthWithinBytes(g: Glyphs, s: seq<Byte>)
    requires NarrowGlyphs(g)
    ensures StringWidth(g, s) <= |s|
    decreases |s|
  {
    if |s| > 0 {
      NarrowWidthWithinBytes(g, s[Advance(g, s)..]);
    }
  }

  /** Dropping leading runes never lengthens a string. */
  lemma {:induction false} RuneSuffixNoLonger(g: Glyphs, t: seq<Byte>, s: seq<Byte>)
    requires RuneSuffix(g, t, s)
    ensures |t| <= |s|
    decreases |s|
  {
    if t != s {
      RuneSuffixNoLonger(g, t, s[Advance(g, s)..]);
    }
  }

  /** The truncation loop as written: while the tracked width exceeds the
      screen width `w`, drop the leading rune and subtract its byte length
      from the tracked width. Returns the kept text and the tracked width:
      the longest whole-rune suffix at which the tracked width fits. */
  function DropWhileWider(g: Glyphs, msg: seq<Byte>, width: int, w: nat): (r: (seq<Byte>, int))
    requires NarrowGlyphs(g)
    requires width <= StringWidth(g, msg)
    ensures r.1 <= w
    ensures r.1 <= StringWidth(g, r.0)
    ensures RuneSuffix(g, r.0, msg)
    ensures width - r.1 == |msg| - |r.0|
    ensures r.0 == msg <==> width <= w
    ensures forall t :: RuneSuffix(g, t, msg) && |t| > |r.0| ==> width - (|msg| - |t|) > w
    decreases |msg|
  {
    if width > w then
      var n := Advance(g, msg);
      var r := DropWhileWider(g, msg[n..], width - n, w);
      assert forall t :: RuneSuffix(g, t, msg) && t != msg ==> RuneSuffix(g, t, msg[n..]);
      r
    else
      assert forall t :: RuneSuffix(g, t, msg) ==> |t| <= |msg| by {
        forall t | RuneSuffix(g, t, msg) { RuneSuffixNoLonger(g, t, msg); }
      }
      (msg, width)
  }

  /** `n` blanks. */
  function Spaces(n: nat): (s: seq<Byte>)
    ensures |s| == n && forall i :: 0 <= i < n ==> s[i] == SpaceByte
  {
    seq(n, _ => SpaceByte)
  }

  /** StatusBar: its anchor and the pending auto-clear, if any (the delay it
      was armed with). The timer's concurrency is not modelled: the slot is
      updated sequentially. */
  datatype StatusBar = StatusBar(settings: AnchorSettings, clearTimer: Option<int>)

  /** What PrintStatus draws on its row: left padding in basic colours and
      the message in reverse video, either of which may be absent. */
  datatype StatusDraw = StatusDraw(row: int, pad: Option<Run>, message: Option<Run>)

  /** NewStatusBar: validates the anchor and keeps the settings; no timer
      is pending. */
  function NewStatusBar(anchor: VerticalAnchor, anchorOffset: int): (r: Result<StatusBar>)
    ensures r.Success? <==> IsValidVerticalAnchor(anchor)
    ensures r.Success? ==> r.value.settings == AnchorSettings(anchor, anchorOffset)
    ensures r.Success? ==> r.value.clearTimer.None?
  {
    var settings :- NewAnchorSettings(anchor, anchorOffset);
    Success(StatusBar(settings, None))
  }

  /** The row PrintStatus draws once the kept text and its tracked width are
      known: blanks in basic colours from column 0 up to the message, then
      the text in bold reverse video, placed so that its tracked width ends
      at the right edge. */
  function StatusRow(style: Style, row: int, text: seq<Byte>, width: int, w: nat): (d: StatusDraw)
    requires width <= w
    ensures d.row == row
    ensures d.pad.Some? <==> w > width
    ensures d.pad.Some? ==> d.pad.value == Run(0, row, style.basicFG, style.basicBG, Spaces(w - width), false)
    ensures d.message.Some? <==> width > 0
    ensures d.message.Some? ==>
              d.message.value == Run(w - width, row, style.basicFG | AttrReverse | AttrBold,
                                     style.basicBG | AttrReverse, text, false)
    ensures d.pad.Some? && d.message.Some? ==> |d.pad.value.text| == d.message.value.x
  {
    StatusDraw(row,
      if w > width then Some(Run(0, row, style.basicFG, style.basicBG, Spaces(w - width), false)) else None,
      if width > 0 then Some(Run(w - width, row, style.basicFG | AttrReverse | AttrBold, style.basicBG | AttrReverse, text, false)) else None)
  }

  /** PrintStatus: stops the pending timer, truncates the message from the
      front until its tracked width fits the screen width `w`, draws the
      padding and the right-aligned message, and arms a new timer when the
      delay is non-zero. Screen width is the terminal's, hence not negative. */
  function PrintStatus(g: Glyphs, sb: StatusBar, style: Style, msg: seq<Byte>, clearDelay: int, w: nat, height: int)
    : (r: Result<(StatusBar, StatusDraw)>)
    requires NarrowGlyphs(g)
    ensures r.Success? <==> IsValidVerticalAnchor(sb.settings.anchor)
    ensures r.Success? ==>
              var (sb', d) := r.value;
              && sb'.settings == sb.settings
              && (sb'.clearTimer.Some? <==> clearDelay != 0)
              && (sb'.clearTimer.Some? ==> sb'.clearTimer.value == clearDelay)
              && d.row == AnchorPosition(sb.settings, height).value
    ensures r.Success? ==>
              var d := r.value.1;
              var (text, width) := DropWhileWider(g, msg, StringWidth(g, msg), w);
              && (d.pad.Some? <==> w > width)
              && (d.pad.Some? ==> d.pad.value == Run(0, d.row, style.basicFG, style.basicBG, Spaces(w - width), false))
              && (d.message.Some? <==> width > 0)
              && (d.message.Some? ==>
                    d.message.value == Run(w - width, d.row, style.basicFG | AttrReverse | AttrBold,
                                           style.basicBG | AttrReverse, text, false))
    ensures r.Success? ==>
              var d := r.value.1;
              && (d.message.Some? ==> RuneSuffix(g, d.message.value.text, msg))
              && (d.message.Some? && StringWidth(g, msg) <= w ==> d.message.value.text == msg)
              && (d.message.Some? ==> 0 <= d.message.value.x < w)
              && (d.pad.Some? && d.message.Some? ==> |d.pad.value.text| == d.message.value.x)
              && (d.pad.None? && d.message.Some? ==> d.message.value.x == 0)
  {
    var location :- AnchorPosition(sb.settings, height);
    var (text, width) := DropWhileWider(g, msg, StringWidth(g, msg), w);
    var timer := if clearDelay != 0 then Some(clearDelay) else None;
    Success((sb.(clearTimer := timer), StatusRow(style, location, text, width, w)))
  }

  /** The timer's callback prints an empty message with no delay: the row
      becomes blanks only and no timer stays armed. A later message without
      delay likewise disarms the timer an earlier message armed, so at most
      one clear is ever pending and the later call wins. */
  lemma ClearAndReplace(g: Glyphs, sb: StatusBar, style: Style, msg: seq<Byte>, w: nat, height: int)
    requires NarrowGlyphs(g)
    requires IsValidVerticalAnchor(sb.settings.anchor)
    ensures var r := PrintStatus(g, sb, style, [], 0, w, height);
            && r.Success?
            && r.value.0.clearTimer.None?
            && r.value.1.message.None?
            && (w > 0 ==> r.value.1.pad.Some? && r.value.1.pad.value.text == Spaces(w))
    ensures var first := PrintStatus(g, sb, style, msg, 100, w, height);
            first.Success? && first.value.0.clearTimer == Some(100) &&
            PrintStatus(g, first.value.0, style, msg, 0, w, height).value.0.clearTimer.None?
  {
  }

  /** The truncation as evidently intended: drop leading runes while the
      display width of what remains exceeds `w`. The result is the longest
      whole-rune suffix that fits. Needs no assumption on the width function. */
  function DropWhileWiderByWidth(g: Glyphs, msg: seq<Byte>, w: nat): (r: seq<Byte>)
    ensures StringWidth(g, r) <= w
    ensures RuneSuffix(g, r, msg)
    ensures r == msg <==> StringWidth(g, msg) <= w
    ensures forall t :: RuneSuffix(g, t, msg) && |t| > |r| ==> StringWidth(g, t) > w
    decreases |msg|
  {
    if StringWidth(g, msg) > w then
      var r := DropWhileWiderByWidth(g, msg[Advance(g, msg)..], w);
      assert forall t :: RuneSuffix(g, t, msg) && t != msg ==> RuneSuffix(g, t, msg[Advance(g, msg)..]);
      r
    else
      assert forall t :: RuneSuffix(g, t, msg) ==> |t| <= |msg| by {
        forall t | RuneSuffix(g, t, msg) { RuneSuffixNoLonger(g, t, msg); }
      }
      msg
  }

  /** PrintStatus with the corrected truncation: the kept message ends
      exactly at the right edge and the padding covers the rest of the row.
      It terminates for every width function. */
  function PrintStatusByWidth(g: Glyphs, sb: StatusBar, style: Style, msg: seq<Byte>, clearDelay: int, w: nat, height: int)
    : (r: Result<(StatusBar, StatusDraw)>)
    ensures r.Success? <==> IsValidVerticalAnchor(sb.settings.anchor)
    ensures r.Success? ==>
              var (sb', d) := r.value;
              && sb'.settings == sb.settings
              && (sb'.clearTimer.Some? <==> clearDelay != 0)
              && (sb'.clearTimer.Some? ==> sb'.clearTimer.value == clearDelay)
              && d.row == AnchorPosition(sb.settings, height).value
    ensures r.Success? ==>
              var d := r.value.1;
              var text := DropWhileWiderByWidth(g, msg, w);
              var width := StringWidth(g, text);
              && (d.pad.Some? <==> w > width)
              && (d.pad.Some? ==> d.pad.value == Run(0, d.row, style.basicFG, style.basicBG, Spaces(w - width), false))
              && (d.message.Some? <==> width > 0)
              && (d.message.Some? ==>
                    d.message.value == Run(w - width, d.row, style.basicFG | AttrReverse | AttrBold,
                                           style.basicBG | AttrReverse, text, false))
    ensures r.Success? ==>
              var d := r.value.1;
              && (StringWidth(g, msg) > 0 && w > 0 ==> d.message.Some? || d.pad.Some?)
              && (d.message.Some? ==> RuneSuffix(g, d.message.value.text, msg))
              && (d.message.Some? ==> 0 <= d.message.value.x
                                      && d.message.value.x + StringWidth(g, d.message.value.text) == w)
              && (StringWidth(g, msg) <= w ==> (StringWidth(g, msg) > 0 <==> d.message.Some?)
                                               && (d.message.Some? ==> d.message.value.text == msg))
              && (d.pad.Some? ==> d.pad.value.x == 0 && 0 < |d.pad.value.text| <= w)
              && (d.pad.Some? && d.message.Some? ==> |d.pad.value.text| == d.message.value.x)
  {
    var location :- AnchorPosition(sb.settings, height);
    var text := DropWhileWiderByWidth(g, msg, w);
    var timer := if clearDelay != 0 then Some(clearDelay) else None;
    Success((sb.(clearTimer := timer), StatusRow(style, location, text, StringWidth(g, text), w)))
  }

  /** A toy decoder: a lead byte of 0xE0 or more starts a three-byte rune
      (reported as U+4E00), any other byte is a rune by itself. */
  function ToyDecode(s: seq<Byte>): Decoded {
    if |s| >= 3 && s[0] >= 0xE0 then Decoded(0x4E00, 3)
    else if |s| > 0 then Decoded(s[0], 1)
    else Decoded(RuneError, 0)
  }

  /** A toy width function: East Asian runes take two columns. */
  function ToyWidth(r: Rune): nat {
    if r >= 0x1100 then 2 else 1
  }

  /** "一一": two three-byte runes, each two columns wide. */
  const TwoWideRunes: seq<Byte> := [0xE4, 0xB8, 0x80, 0xE4, 0xB8, 0x80]

  /** On a two-column screen the message "一一" (width 4) loses its first
      rune; the code then subtracts that rune's three bytes instead of its two
      columns, believes the rest is one column wide, and draws it at column
      1, where its two columns overrun the right edge. The corrected
      truncation draws the same rune at column 0. */
  lemma StatusOverrunsWithWideRunes(sb: StatusBar, style: Style, height: int)
    requires IsValidVerticalAnchor(sb.settings.anchor)
    ensures NarrowGlyphs(Glyphs(ToyDecode, ToyWidth))
    ensures var g: Glyphs := Glyphs(ToyDecode, ToyWidth);
            var r := PrintStatus(g, sb, style, TwoWideRunes, 0, 2, height);
            && r.Success? && r.value.1.message.Some?
            && r.value.1.message.value.text == TwoWideRunes[3..]
            && r.value.1.message.value.x == 1
            && r.value.1.message.value.x + StringWidth(g, r.value.1.message.value.text) == 3
    ensures var g: Glyphs := Glyphs(ToyDecode, ToyWidth);
            var r := PrintStatusByWidth(g, sb, style, TwoWideRunes, 0, 2, height);
            && r.Success? && r.value.1.message.Some?
            && r.value.1.message.value.text == TwoWideRunes[3..]
            && r.value.1.message.value.x == 0
  {
    var g: Glyphs := Glyphs(ToyDecode, ToyWidth);
    var tail := TwoWideRunes[3..];
    assert g.decode(TwoWideRunes) == Decoded(0x4E00, 3);
    assert g.decode(tail) == Decoded(0x4E00, 3);
    assert tail[3..] == [];
    assert StringWidth(g, tail) == 2;
    assert StringWidth(g, TwoWideRunes) == 4;
  }

  /** One pass of the truncation loop exactly as written, with the
      decoder's own size: a non-empty message loses exactly its leading
      rune (the longest proper whole-rune suffix remains) and the tracked
      width drops by that rune's bytes. utf8.DecodeRuneInString reports 0
      bytes for the empty string, so a pass over an empty message changes
      nothing. */
  function TruncationPass(g: Glyphs, msg: seq<Byte>, width: int): (r: (seq<Byte>, int))
    ensures |msg| == 0 ==> r == (msg, width)
    ensures |msg| > 0 ==> |r.0| < |msg| && width - r.1 == |msg| - |r.0|
    ensures |msg| > 0 ==> && RuneSuffix(g, r.0, msg) && r.0 != msg
                          && forall t :: RuneSuffix(g, t, msg) && t != msg ==> |t| <= |r.0|
  {
    if |msg| == 0 then (msg, width)
    else
      var rw := Advance(g, msg);
      assert forall t :: RuneSuffix(g, t, msg) && t != msg ==> |t| <= |msg[rw..]| by {
        forall t | RuneSuffix(g, t, msg) && t != msg {
          RuneSuffixNoLonger(g, t, msg[rw..]);
        }
      }
      (msg[rw..], width - rw)
  }

  /** At most k passes of the loop as written, stopping as soon as the
      tracked width fits the screen width `w`. */
  function TruncationPasses(g: Glyphs, msg: seq<Byte>, width: int, w: int, k: nat): (seq<Byte>, int)
  {
    if k == 0 || width <= w then (msg, width)
    else
      var (rest, left) := TruncationPass(g, msg, width);
      TruncationPasses(g, rest, left, w, k - 1)
  }

  /** The passes of the loop as written are the truncation PrintStatus
      uses: when no rune is wider than its bytes, as many passes as the
      message has bytes end exactly where DropWhileWider ends. So the hang
      below is a property of the same loop. */
  lemma {:induction false} PassesAgreeWithDropWhileWider(g: Glyphs, msg: seq<Byte>, width: int, w: nat, k: nat)
    requires NarrowGlyphs(g)
    requires width <= StringWidth(g, msg)
    requires k >= |msg|
    ensures TruncationPasses(g, msg, width, w, k) == DropWhileWider(g, msg, width, w)
  {
    PassesAreSkip(g, msg, width, w, k);
    DropIsSkip(g, msg, width, w);
  }

  /** The shape both truncations share: skip one whole rune at a time
      while the width is too wide and bytes are left. */
  function SkipWider(g: Glyphs, msg: seq<Byte>, width: int, w: int): (seq<Byte>, int)
    decreases |msg|
  {
    if |msg| == 0 || width <= w then (msg, width)
    else SkipWider(g, msg[Advance(g, msg)..], width - Advance(g, msg), w)
  }

  /** Enough passes of the loop as written skip exactly as SkipWider does,
      whatever the glyphs. */
  lemma {:induction false} PassesAreSkip(g: Glyphs, msg: seq<Byte>, width: int, w: int, k: nat)
    requires k >= |msg|
    ensures TruncationPasses(g, msg, width, w, k) == SkipWider(g, msg, width, w)
    decreases |msg|
  {
    if |msg| == 0 {
      EmptyPasses(g, msg, width, w, k);
    } else if width > w {
      PassStep(g, msg, width, w, k);
      PassesAreSkip(g, msg[Advance(g, msg)..], width - Advance(g, msg), w, k - 1);
    }
  }

  /** DropWhileWider skips exactly as SkipWider does. */
  lemma {:induction false} DropIsSkip(g: Glyphs, msg: seq<Byte>, width: int, w: nat)
    requires NarrowGlyphs(g)
    requires width <= StringWidth(g, msg)
    ensures DropWhileWider(g, msg, width, w) == SkipWider(g, msg, width, w)
    decreases |msg|
  {
    if width > w {
      DropStep(g, msg, width, w);
      DropIsSkip(g, msg[Advance(g, msg)..], width - Advance(g, msg), w);
    } else {
      DropStop(g, msg, width, w);
    }
  }

  /** Passes over the empty message change nothing. */
  lemma {:induction false} EmptyPasses(g: Glyphs, msg: seq<Byte>, width: int, w: int, k: nat)
    requires |msg| == 0
    ensures TruncationPasses(g, msg, width, w, k) == (msg, width)
    decreases k
  {
    if k > 0 && width > w {
      EmptyPasses(g, msg, width, w, k - 1);
    }
  }

  /** Under NarrowGlyphs, skipping the first rune lowers the width by at
      most the bytes skipped. */
  lemma NarrowStep(g: Glyphs, msg: seq<Byte>)
    requires NarrowGlyphs(g) && |msg| > 0
    ensures StringWidth(g, msg) - Advance(g, msg) <= StringWidth(g, msg[Advance(g, msg)..])
  {
    assert g.runeWidth(g.decode(msg).rune) <= Advance(g, msg);
  }

  /** One pass of the loop as written, while the width is too wide. */
  lemma PassStep(g: Glyphs, msg: seq<Byte>, width: int, w: int, k: nat)
    requires |msg| > 0 && width > w && k > 0
    ensures TruncationPasses(g, msg, width, w, k)
         == TruncationPasses(g, msg[Advance(g, msg)..], width - Advance(g, msg), w, k - 1)
  {
  }

  /** DropWhileWider leaves a message that already fits unchanged. */
  lemma DropStop(g: Glyphs, msg: seq<Byte>, width: int, w: nat)
    requires NarrowGlyphs(g) && width <= StringWidth(g, msg) && width <= w
    ensures DropWhileWider(g, msg, width, w) == (msg, width)
  {
    var r := DropWhileWider(g, msg, width, w);
    assert r.0 == msg && width - r.1 == |msg| - |r.0|;
  }

  /** One step of DropWhileWider, while the width is too wide. */
  lemma DropStep(g: Glyphs, msg: seq<Byte>, width: int, w: nat)
    requires NarrowGlyphs(g) && width <= StringWidth(g, msg) && width > w
    ensures |msg| > 0 && width - Advance(g, msg) <= StringWidth(g, msg[Advance(g, msg)..])
    ensures DropWhileWider(g, msg, width, w)
         == DropWhileWider(g, msg[Advance(g, msg)..], width - Advance(g, msg), w)
  {
    assert |msg| > 0;
    NarrowStep(g, msg);
  }

  /** A decoder for bytes that are not UTF-8: every byte decodes as
      RuneError, one byte long, and the empty string as RuneError of size 0. */
  function InvalidDecode(s: seq<Byte>): Decoded {
    if |s| > 0 then Decoded(RuneError, 1) else Decoded(RuneError, 0)
  }

  /** runewidth with East Asian widths on: RuneError is ambiguous and takes
      two columns. */
  function AmbiguousWide(r: Rune): nat {
    if r == RuneError then 2 else 1
  }

  /** Once the message is empty with a tracked width above `w`, no number of
      further passes ever ends the loop. */
  lemma {:induction false} EmptyMessageStaysTooWide(g: Glyphs, width: int, w: int, k: nat)
    requires width > w
    ensures TruncationPasses(g, [], width, w, k) == ([], width)
  {
    if k > 0 {
      assert TruncationPass(g, [], width) == ([], width);
      EmptyMessageStaysTooWide(g, width, w, k - 1);
    }
  }

  /** Two invalid bytes, each measured two columns wide, on a one-column
      screen: the loop as written reaches an empty message with tracked
      width 2 after two passes and never leaves it, so PrintStatus would
      spin forever. Such a width function is outside NarrowGlyphs. The
      corrected truncation drops both runes and pads the row with one
      blank. */
  lemma StatusHangsOnWideInvalidBytes(sb: StatusBar, style: Style, height: int, k: nat)
    requires IsValidVerticalAnchor(sb.settings.anchor)
    ensures var g: Glyphs := Glyphs(InvalidDecode, AmbiguousWide);
            && !NarrowGlyphs(g)
            && StringWidth(g, [0xFF, 0xFF]) == 4
            && TruncationPasses(g, [0xFF, 0xFF], 4, 1, k + 2).1 > 1
    ensures var g: Glyphs := Glyphs(InvalidDecode, AmbiguousWide);
            var r := PrintStatusByWidth(g, sb, style, [0xFF, 0xFF], 0, 1, height);
            && r.Success? && r.value.1.message.None?
            && r.value.1.pad == Some(Run(0, r.value.1.row, style.basicFG, style.basicBG, Spaces(1), false))
  {
    var g: Glyphs := Glyphs(InvalidDecode, AmbiguousWide);
    var msg: seq<Byte> := [0xFF, 0xFF];
    assert g.decode(msg[1..]) == Decoded(RuneError, 1);
    assert msg[1..][1..] == [];
    assert StringWidth(g, msg[1..]) == 2;
    assert StringWidth(g, msg) == 4;
    var one: seq<Byte> := [0xFF];
    assert g.runeWidth(g.decode(one).rune) > Advance(g, one);
    assert TruncationPass(g, msg, 4) == (msg[1..], 3);
    assert TruncationPass(g, msg[1..], 3) == ([], 2);
    EmptyMessageStaysTooWide(g, 2, 1, k);
    assert TruncationPasses(g, msg, 4, 1, k + 2) == TruncationPasses(g, [], 2, 1, k);
    assert DropWhileWiderByWidth(g, msg[1..], 1) == [] by {
      assert msg[1..][Advance(g, msg[1..])..] == [];
    }
  }
}

=== FILE: text.dfy ===
/** Text measurement and the `printScreen` utility.

    UTF-8 decoding (`utf8.DecodeRuneInString`) and display widths
    (`runewidth.RuneWidth`) come from external libraries; they are modelled as
    the two fields of a `Glyphs` value. */
module Text {
  import opened Attributes

  type Byte = b: int | 0 <= b < 256
  type Rune = int

  /** utf8.RuneError, U+FFFD. */
  const RuneError: Rune := 0xFFFD
  const QuestionMark: Rune := 0x3F
  const Space: Rune := 0x20
  const SpaceByte: Byte := 0x20

  /** One decoding step: the rune found at the head of a string and the
      number of bytes it occupies. */
  datatype Decoded = Decoded(rune: Rune, size: nat)

  /** A decoder and a width function. */
  datatype Glyphs = Glyphs(decode: seq<Byte> -> Decoded, runeWidth: Rune -> nat)

  /** The bytes the rune at the head of a non-empty string occupies. A UTF-8
      decoder always reports between one byte and the whole string; a size
      outside that range is read as one byte. */
  function Advance(g: Glyphs, s: seq<Byte>): (n: nat)
    requires |s| > 0
    ensures 1 <= n <= |s|
    ensures n == g.decode(s).size || n == 1
  {
    var k := g.decode(s).size;
    if 1 <= k <= |s| then k else 1
  }

  /** runewidth.StringWidth: the display width of a string, rune by rune.
      Invalid bytes are measured as whatever rune the decoder reports. */
  function StringWidth(g: Glyphs, s: seq<Byte>): nat
    decreases |s|
  {
    if |s| == 0 then 0
    else
      g.runeWidth(g.decode(s).rune) + StringWidth(g, s[Advance(g, s)..])
  }

  /** The total display width of a sequence of runes. */
  function RunesWidth(g: Glyphs, rs: seq<Rune>): nat
  {
    if |rs| == 0 then 0 else g.runeWidth(rs[0]) + RunesWidth(g, rs[1..])
  }

  lemma {:induction false} RunesWidthAppend(g: Glyphs, a: seq<Rune>, b: seq<Rune>)
    ensures RunesWidth(g, a + b) == RunesWidth(g, a) + RunesWidth(g, b)
    decreases |a|
  {
    if |a| == 0 {
      assert a + b == b;
    } else {
      assert (a + b)[1..] == a[1..] + b;
      RunesWidthAppend(g, a[1..], b);
    }
  }

  /** The step printScreen takes at the head of a non-empty string: any
      decoded RuneError, even a correctly encoded U+FFFD, is shown as '?'
      and consumes exactly one byte. */
  function PrintStep(g: Glyphs, msg: seq<Byte>): (d: Decoded)
    requires |msg| > 0
    ensures 1 <= d.size <= |msg|
    ensures d.rune != RuneError
    ensures d.rune == g.decode(msg).rune || (d.rune == QuestionMark && d.size == 1)
    ensures g.decode(msg).rune != RuneError ==> d == Decoded(g.decode(msg).rune, Advance(g, msg))
  {
    var d := g.decode(msg);
    if d.rune == RuneError then Decoded(QuestionMark, 1) else Decoded(d.rune, Advance(g, msg))
  }

  /** The runes printScreen writes for `msg`, one cell each. */
  function ShownRunes(g: Glyphs, msg: seq<Byte>): (r: seq<Rune>)
    ensures |r| <= |msg|
    ensures |msg| > 0 ==> |r| > 0
    ensures forall i :: 0 <= i < |r| ==> r[i] != RuneError
    decreases |msg|
  {
    if |msg| == 0 then []
    else
      var d := PrintStep(g, msg);
      [d.rune] + ShownRunes(g, msg[d.size..])
  }

  /** True when no decoding step along `msg` yields RuneError. */
  predicate DecodesCleanly(g: Glyphs, msg: seq<Byte>)
    decreases |msg|
  {
    |msg| == 0 ||
    (g.decode(msg).rune != RuneError && DecodesCleanly(g, msg[Advance(g, msg)..]))
  }

  /** For cleanly decoding text the columns printScreen advances over are
      exactly runewidth.StringWidth of the text; otherwise each RuneError is
      measured as '?' instead. */
  lemma {:induction false} ShownWidthIsStringWidth(g: Glyphs, msg: seq<Byte>)
    requires DecodesCleanly(g, msg)
    ensures RunesWidth(g, ShownRunes(g, msg)) == StringWidth(g, msg)
    decreases |msg|
  {
    if |msg| > 0 {
      var n := Advance(g, msg);
      ShownWidthIsStringWidth(g, msg[n..]);
      assert ShownRunes(g, msg) == [g.decode(msg).rune] + ShownRunes(g, msg[n..]);
    }
  }

  /** One SetCell call on the terminal. */
  datatype Cell = Cell(x: int, y: int, ch: Rune, fg: Attr, bg: Attr)

  /** One printScreen call: text drawn from column x on row y, optionally
      filled with blanks to the right edge. */
  datatype Run = Run(x: int, y: int, fg: Attr, bg: Attr, text: seq<Byte>, fill: bool)

  /** One step of printScreen's loop consumes the next shown rune and
      advances the column by its width. */
  lemma PrintedOne(g: Glyphs, shown: seq<Rune>, rest: seq<Byte>, k: int)
    requires |rest| > 0 && 0 <= k <= |shown|
    requires ShownRunes(g, rest) == shown[k..]
    ensures var d := PrintStep(g, rest);
            && k < |shown|
            && shown[k] == d.rune
            && ShownRunes(g, rest[d.size..]) == shown[k + 1..]
            && RunesWidth(g, shown[..k + 1]) == RunesWidth(g, shown[..k]) + g.runeWidth(d.rune)
  {
    var d := PrintStep(g, rest);
    assert shown[k..] == [d.rune] + ShownRunes(g, rest[d.size..]);
    assert shown[..k + 1] == shown[..k] + [d.rune];
    RunesWidthAppend(g, shown[..k], [d.rune]);
    assert shown[k + 1..] == shown[k..][1..];
  }

  /** The first half of printScreen: the shown runes written from column x,
      each advancing the column by its display width. */
  method PrintRunes(g: Glyphs, x: int, y: int, fg: Attr, bg: Attr, msg: seq<Byte>)
    returns (cells: seq<Cell>, col: int)
    ensures var shown := ShownRunes(g, msg);
            && |cells| == |shown|
            && col == x + RunesWidth(g, shown)
            && forall i :: 0 <= i < |shown| ==>
                 cells[i] == Cell(x + RunesWidth(g, shown[..i]), y, shown[i], fg, bg)
  {
    ghost var shown := ShownRunes(g, msg);
    var rest := msg;
    col := x;
    cells := [];
    while |rest| > 0
      invariant |cells| <= |shown|
      invariant ShownRunes(g, rest) == shown[|cells|..]
      invariant col == x + RunesWidth(g, shown[..|cells|])
      invariant forall i :: 0 <= i < |cells| ==>
                  cells[i] == Cell(x + RunesWidth(g, shown[..i]), y, shown[i], fg, bg)
      decreases |rest|
    {
      var d := PrintStep(g, rest);
      PrintedOne(g, shown, rest, |cells|);
      cells := cells + [Cell(col, y, d.rune, fg, bg)];
      col := col + g.runeWidth(d.rune);
      rest := rest[d.size..];
    }
    assert shown[..|cells|] == shown;
  }

  /** The second half of printScreen: blanks from column x up to the screen
      width. */
  method FillRow(x: int, y: int, fg: Attr, bg: Attr, screenWidth: int) returns (cells: seq<Cell>)
    ensures |cells| == if x < screenWidth then screenWidth - x else 0
    ensures forall i :: 0 <= i < |cells| ==> cells[i] == Cell(x + i, y, Space, fg, bg)
  {
    cells := [];
    var col := x;
    while col < screenWidth
      invariant col >= x
      invariant |cells| == col - x
      invariant x < screenWidth ==> col <= screenWidth
      invariant x >= screenWidth ==> col == x
      invariant forall i :: 0 <= i < |cells| ==> cells[i] == Cell(x + i, y, Space, fg, bg)
      decreases screenWidth - col
    {
      cells := cells + [Cell(col, y, Space, fg, bg)];
      col := col + 1;
    }
  }

  /** printScreen: the shown runes of `msg` from column x, then, with fill,
      blanks up to the screen width. */
  method PrintScreen(g: Glyphs, x: int, y: int, fg: Attr, bg: Attr, msg: seq<Byte>, fill: bool, screenWidth: int)
    returns (cells: seq<Cell>)
    ensures var shown := ShownRunes(g, msg);
            var end := x + RunesWidth(g, shown);
            && |cells| == |shown| + (if fill && end < screenWidth then screenWidth - end else 0)
            && (forall i :: 0 <= i < |shown| ==>
                  cells[i] == Cell(x + RunesWidth(g, shown[..i]), y, shown[i], fg, bg))
            && (forall i :: |shown| <= i < |cells| ==>
                  cells[i] == Cell(end + (i - |shown|), y, Space, fg, bg))
  {
    var col;
    cells, col := PrintRunes(g, x, y, fg, bg, msg);
    if fill {
      var blanks := FillRow(col, y, fg, bg, screenWidth);
      cells := cells + blanks;
    }
  }
}
